=== FILE: README.md ===
# ImageOptim API client: a Dafny model

This project models the PHP client of the ImageOptim web service. The client
builds a request for one image. The image is either a URL the service
downloads or a local file the client uploads. The client encodes the resize,
pixel-ratio, quality, time-out and background options into the path of an
`https://im2.io/...` URL and sends the request. Then it turns the HTTP answer
into the image bytes or into one of six kinds of exception: network,
access-denied, API, not-found, origin-server or invalid-argument.

The model is pure functions over immutable data:

- `Php` covers the PHP values the public methods receive (null, booleans,
  64-bit integers, byte strings), with truthiness, string conversion,
  `is_numeric` and `intval`.
- `Options` holds the option record and its validating setters. Each setter
  returns the exception it throws or the updated record.
- `Chain` models the fluent interface as a list of setter calls.
- `Rendering` renders the comma-separated options segment of the URL.
  `PercentEncoding` is PHP's `rawurlencode`, per sections 2.1 and 2.3 of
  RFC 3986.
- `Requests` has the two request constructors and `apiURL`.
- `Multipart` builds the `multipart/form-data` upload of a file request:
  RFC 7578, with the delimiters of section 5.1.1 of RFC 2046.
- `Transport` covers the context `getBytesWithOptions` sends, the status-line
  and content-type patterns, and the classification of the answer.
- `Api` validates the user name.
- `Scenarios` restates the unit tests' concrete cases.

Every producer has a partner that the lemmas connect to it:

- The URL has a parser. It reads back the user name, the options and the image
  URL. The rendering is canonical: two valid requests share a URL exactly when
  they agree on what it shows.
- Percent-encoding has a decoder.
- The upload body has a reader that, like a server, ends the data at the first
  delimiter. It reads back the file name and the data exactly when the data
  does not contain the delimiter. The upload headers have readers too: they
  declare the body's length, the hash, and the boundary the body uses.
- The status-line pattern has a renderer of status lines.
- The setters have the validity invariant that they preserve, and the
  commutation and override laws of chained calls.

The stream layer and the PHP built-ins that reach outside the program are
parameters:

- `send: HttpRequest -> Exchange` stands for `fopen`, `stream_get_contents`,
  `stream_get_meta_data` and `error_get_last`.
- `decode` stands for `json_decode`.
- `readFile` stands for `file_get_contents`.
- `fileExists` stands for `file_exists`.
- `md5` stands for `md5`.
- `cwd` stands for `getcwd`.
- `phpVersion` stands for `phpversion`.

Where the code and the library's documentation differ, the model follows the
code:

- A 403 answer raises an origin-server error for URL requests and file requests
  alike. Only the JSON error code `IM2ACCOUNT` raises an access-denied error,
  whatever the HTTP status.
- The `Content-MD5` header carries the MD5 of the file's path, not of its
  contents, and the same hash makes the multipart boundary.
- The content type is written `multipart/form-data, boundary=...`, with a comma.

## Model

| member | source | states |
|---|---|---|
| Options.CheckSize | src/Request.php:33-51 | the size check passes exactly when the width is in [1, 10000], a height is absent or in that range, the fit mode is absent or one of `fit`, `crop`, `scale-down`, `pad`, and `crop` or `pad` come with a height; it then stores exactly those three values; every refusal is an invalid-argument error |
| Options.Resize | src/Request.php:16-55 | a successful `resize` stores a width, height and fit that form a valid size and changes no other field; every refusal is an invalid-argument error |
| Options.ResizeAcceptsExactlyValidSizes | src/Request.php:16-51 | with an integer width, an optional integer height and an optional fit string, `resize` succeeds exactly when the values form a valid size, and then stores exactly them |
| Options.ResizeReadsSecondArgument | src/Request.php:22-31 | a non-numeric second argument is the fit mode when the third is falsy, and otherwise raises "Height is not a number" for a numeric width |
| Options.ResizeRejectsNonNumericWidth | src/Request.php:17-19 | a non-numeric width is refused with "Width is not a number", whatever the other arguments |
| Options.Timeout | src/Request.php:57-64 | `timeout` succeeds exactly for numeric arguments with a positive value, stores the argument as given and changes nothing else |
| Options.HexColorMatch | src/Request.php:69 | the colour pattern captures only hexadecimal strings, captures a plain hexadecimal string whole, and a capture is the input without a leading `#` and a final line feed |
| Options.HexColorMatchExactly | src/Request.php:69 | the pattern captures `h` exactly when `h` is hexadecimal and the input is `h` with an optional `#` in front and an optional line feed behind |
| Options.Bgcolor | src/Request.php:66-75 | `"transparent"`, `false` and `null` clear the colour; otherwise the stored colour is exactly what the pattern captures; the call fails exactly when neither applies, with an invalid-argument error that quotes the argument; only the colour field changes |
| Options.BgcolorStoresDigits | src/Request.php:69-70 | a hexadecimal colour given with or without `#`, and with or without one final line feed, is stored as its digits alone |
| Options.BgcolorStripsHash | src/Request.php:69-70 | a `#` in front of hexadecimal digits is dropped and the digits are stored with their letter case |
| Options.Dpr | src/Request.php:77-84 | corrected `dpr`: succeeds exactly on the shape digit, digits and dots, optional final `x`; the stored value has that shape and ends in `x`, is the argument with `x` appended when missing, and is the only change |
| Options.DprAsWritten | src/Request.php:77-84 | `dpr` as written agrees with the corrected one on every argument without a trailing line feed; with one, it succeeds exactly when the rest has the accepted shape, and then stores the argument, or the argument with `x` appended, which the accepted shape excludes |
| Options.DprIsIdempotent | src/Request.php:77-84 | calling `dpr` again with the stored value gives the same options |
| Options.DprSuffixIsOptional | src/Request.php:81 | `dpr("2")` and `dpr("2x")` store the same value |
| Options.DprAsWrittenAcceptsTrailingNewline | src/Request.php:78-81 | as written, `"2x\n"` is stored though it does not end in `x`, and `"2\n"` is stored as `"2\nx"`, which `dpr` itself refuses; the corrected `dpr` refuses both |
| Options.Quality | src/Request.php:86-94 | `quality` succeeds exactly for `low`, `medium`, `high` and `lossless`, stores the argument and changes nothing else |
| Chain.ApplyWritesOnlyItsFields | src/Request.php:49-51 | every setter decides success without reading the current options, and on success overwrites only its own fields with what it writes into unset options |
| Chain.ApplyPreservesValid | src/Request.php:16-99 | a successful setter, with `dpr` corrected, keeps the options valid |
| Chain.RunPreservesValid | src/Request.php:16-99 | a successful chain of setter calls, with `dpr` corrected, ends in valid options |
| Chain.DisjointCallsCommute | src/Request.php:16-99 | two calls that write different fields give the same outcome in either order |
| Chain.LaterCallOverrides | src/Request.php:49-51 | a later call that writes all the fields an earlier successful one wrote makes the earlier call irrelevant, so a later `resize` fully replaces an earlier one |
| Chain.ApplyIsIdempotent | src/Request.php:16-99 | repeating a successful call changes nothing |
| PercentEncoding.DecodeEncode | src/URLRequest.php:20 | percent-decoding the encoding gives back the input, so the URL is encoded exactly once |
| PercentEncoding.EncodeIsCanonical | src/URLRequest.php:20 | the encoding holds only unreserved characters and `%` triples of upper-case hexadecimal digits for the other bytes |
| PercentEncoding.EncodeDecode | src/URLRequest.php:20 | every canonical string decodes, and is the encoding of what it decodes to |
| PercentEncoding.CanonicalAlphabet | src/URLRequest.php:20 | a canonical string holds only unreserved characters and `%` |
| PercentEncoding.EncodeHasNoSeparators | src/URLRequest.php:20 | an encoded user name or image URL contains no `/` and no `,` |
| Rendering.ValidFieldsShown | src/Request.php:103-116 | every width, height, fit, ratio, quality and time-out that valid options hold passes its `if` in `apiURL` |
| Rendering.SizeItemParses | src/Request.php:103-108 | the size item `W` or `WxH` reads back as the width and height |
| Rendering.ParseItemsOfValid | src/Request.php:102-116 | the option items of valid options, in their fixed order, read back as the options as the URL shows them |
| Rendering.ItemsAreClean | src/Request.php:102-116 | no option item of valid options contains `,` or `/` |
| Rendering.ParseSegmentOfValid | src/Request.php:101-118 | the comma-joined segment of valid options reads back as the options as the URL shows them, and has no `/` |
| Rendering.ItemsOfNormal | src/Request.php:102-116 | the segment depends only on what the URL can show of the options |
| Rendering.SegmentIsCanonical | src/Request.php:101-118 | two valid option records give the same segment exactly when they agree on what the URL shows |
| Requests.AbsoluteUrlIsTruthy | src/URLRequest.php:10-15 | an argument that passes the absolute-URL test is a truthy string |
| Requests.NewUrlRequest | src/URLRequest.php:8-17 | a URL request is created exactly when the user name is truthy and the URL starts with `http://` or `https://`; it then has unset options; a falsy user name and a falsy URL give their own messages; every refusal is an invalid-argument error |
| Requests.NewFileRequest | src/FileRequest.php:8-18 | a file request is created exactly when the user name and path are truthy and the file exists; a falsy user name, a falsy path and a missing file give their own messages, the last naming the path and the working directory |
| Requests.ApiUrlIsJoin | src/URLRequest.php:19-21 | the API URL is the service prefix followed by the `/`-join of the encoded user name, the options segment, and for a URL request the encoded image URL |
| Requests.ApiUrlRoundTrip | src/Request.php:118 | the API URL of a request with valid options reads back as its user name, the options it shows and its image URL; a file request's URL has no third part |
| Requests.ApiUrlIsCanonical | src/Request.php:101-118 | two requests with valid options have the same API URL exactly when they agree on user name, shown options and image URL |
| Multipart.ReadQuotedAddSlashes | src/FileRequest.php:32 | an `addslashes`-escaped name followed by a quote reads back as the name, whatever follows |
| Multipart.BasenameOfPath | src/FileRequest.php:32 | the base name of a path ending in a file name is that file name |
| Multipart.BodyDelimiters | src/FileRequest.php:35-39 | the body starts with `--`, the boundary and CRLF, and ends with CRLF, `--`, the boundary and `--` |
| Multipart.BodyRoundTrip | src/FileRequest.php:35-39 | a reader that ends the data at the first delimiter, as section 5.1.1 of RFC 2046 has it, reads the body back as the file name and the file data exactly when the data does not contain `CRLF--` and the boundary |
| Multipart.UploadHeadersReadBack | src/FileRequest.php:42-44 | whatever headers follow, the upload headers declare the body's length as `Content-Length`, the hash as `Content-MD5`, and `XXX` followed by the hash as the `boundary=` parameter |
| Transport.StatusAt | src/Request.php:158 | what the status pattern captures is a nonempty run of digits and a reason without a line feed |
| Transport.StatusAtReadsLine | src/Request.php:158 | the pattern matches at a position exactly when the text there is `HTTP/`, a version of digits and dots, a space, the code, a space and the reason running to the end of the line; the captures are that code and that reason |
| Transport.FirstStatusAt | src/Request.php:158 | the search stops at the leftmost position where the pattern matches |
| Transport.MatchStatus | src/Request.php:158-160 | the status line fails to match exactly when the pattern matches at no position, and a match is what the pattern captures at some position |
| Transport.StatusLineMatches | src/Request.php:158 | a status line `HTTP/version code reason` matches, capturing the code's digits and the reason |
| Transport.JsonHeaderRecognised | src/Request.php:165 | a header naming `content-type:` in any letter case, then any white space, then the service's JSON type, is recognised |
| Transport.NoColonNoJson | src/Request.php:165 | a header line without a colon never declares the JSON type |
| Transport.Respond | src/Request.php:180-193 | the final checks succeed exactly below 400 and return the body; 500 and above give an API error, 404 a not-found error, 403 an origin-server error, other 4xx an invalid-argument error; the code is the status; not-found and origin-server messages name the source |
| Transport.Receive | src/Request.php:131-160 | the transport checks pass only for an opened stream with a truthy body, and then carry a status code of digits; every refusal is a network error |
| Transport.Conclude | src/Request.php:162-193 | a successful classification returns the body unchanged |
| Transport.JsonOverride | src/Request.php:165-173 | when a header declares the JSON type and the document gives a status and an error but no account error, they replace the status line's code and reason, as written and corrected |
| Transport.JsonStatusOnly | src/Request.php:165-170 | a JSON status without an error replaces the code; the message stays the reason phrase, or empty as written |
| Transport.JsonErrorOnly | src/Request.php:165-173 | a JSON error without a status replaces the message; the status stays the status line's code |
| Transport.JsonNeither | src/Request.php:165-176 | a JSON document with neither a status nor an error, and no account error, leaves the status line's code and reason in force |
| Transport.JsonUndecodable | src/Request.php:165-167 | a body that does not decode is classified by the status line alone, whatever the headers declare |
| Transport.Classify | src/Request.php:131-193 | a successful answer is exactly the truthy body that was read |
| Transport.ClassifyAsWritten | src/Request.php:131-193 | as written, too, a successful answer is exactly the truthy body that was read |
| Transport.ConcludeIsNotNetwork | src/Request.php:162-193 | once the status line is read, no network error is raised |
| Transport.NetworkErrorsAreTransportFailures | src/Request.php:131-160 | a network error is raised exactly when the stream fails to open, the body is falsy, the metadata or headers are missing, the request timed out, or the status line does not match; only the time-out carries a code, 504 |
| Transport.ConcludePlain | src/Request.php:162-193 | without a JSON document the status is what `intval` reads from the status line's code, leading zeros included, and the message its reason phrase, or empty as written |
| Transport.ReceiveStatusLine | src/Request.php:136-160 | an answer whose first header is a well-formed status line passes the transport checks with that line's captures |
| Transport.PlainAnswer | src/Request.php:158-193 | a well-formed answer without a JSON document is classified by its code alone, with the reason phrase as message, or an empty one as written |
| Transport.AccountErrorOverridesStatus | src/Request.php:165-177 | the JSON error code `IM2ACCOUNT` raises an access-denied error, even when the status is below 400; its code is the JSON status, or else the status line's; its message is the JSON error, or else the reason phrase, empty as written |
| Transport.AsWrittenDiffersOnlyInMessage | src/Request.php:162-163 | the as-written classifier succeeds exactly when the corrected one does, with the same result, and fails with the same kind and code |
| Transport.AsWrittenLosesReason | src/Request.php:162-163 | for `HTTP/1.1 400 Bad Request`, the as-written classifier's message is empty, and the corrected one's is `Bad Request` |
| Transport.EffectiveTimeout | src/Request.php:123 | the time-out sent is the larger of 30 seconds and the configured time-out |
| Transport.OutgoingTargetsApiUrl | src/Request.php:122-127 | every request is a POST to the request's API URL, with at least the minimum time-out, its headers ending with `Accept` and the `User-Agent` |
| Transport.OutgoingUpload | src/FileRequest.php:24-47 | a URL request sends no body and only the client's headers; a file request fails with "Unable to read" exactly when the file cannot be read or its contents are falsy; otherwise its headers declare the body's length, the MD5 of the path, and `XXX` followed by that hash as the boundary, and the body read with the declared boundary gives back the base name and the contents exactly when they do not contain the delimiter |
| Transport.GetBytesOutcome | src/URLRequest.php:23-25 | `getBytes` raises the file error before sending, returns only the body of the answer to what it sent, and names the request's URL or path in not-found and origin-server messages |
| Api.NewApi | src/API.php:8-13 | the API object is created exactly for a string user name that is not `""` or `"0"` and contains no space; it keeps the name; every refusal is the same invalid-argument error |
| Api.RequestsOfAcceptedUser | src/API.php:15-21 | an accepted user name never makes request creation fail; a URL request then fails only for a non-absolute URL, and a file request only for a falsy or missing path |
| Api.OnlySpacesAreRefused | src/API.php:9 | a user name with a tab is accepted, one with a space is refused, and `"0"`, an integer and null are refused |
| Api.ApiRequestUrl | src/API.php:15-17 | a URL request created through the API has valid options, and its API URL reads back with the accepted user name |
| Scenarios.FirstChain | test/BasicTest.php:111-112 | the first call order of the chaining test ends in width 1280, height 300, ratio `2x`, quality `low` and time-out 34 |
| Scenarios.SecondChain | test/BasicTest.php:114-115 | the second call order, with the ratio given as the integer 2, ends in the same options |
| Scenarios.ChainsGiveSameUrl | test/BasicTest.php:118 | both call orders give the same API URL, whatever the user and the image |
| Scenarios.PadWithBackground | test/BasicTest.php:101-107 | `resize(10, 15, 'pad')` then `bgcolor('#FFffFF')` stores size 10 by 15, fit `pad` and colour `FFffFF` |
| Scenarios.CropNeedsHeight | test/BasicTest.php:84-94 | `crop` and `pad` without a height are refused with a message that starts with "Height" |
| Scenarios.HeightOutOfRange | test/BasicTest.php:60-62 | an out-of-range height is refused with a message that starts with "Height" |
| Scenarios.SeparatorsEncoded | test/BasicTest.php:123 | `:` and `/` are percent-encoded as `%3A` and `%2F` |

## Left out

- Options.ResizeAcceptsExactlyValidSizes: states the exact acceptance condition for integer arguments only. Numeric strings pass through `intval` too, but saturation and signs make a closed statement unreadable, and `Resize` and `CheckSize` state what holds for every argument.
- Options.Resize: its own contract does not give the acceptance condition. That is stated by `CheckSize` and `ResizeAcceptsExactlyValidSizes`.
- Transport.Conclude: its own contract states only that success returns the body. The classification is stated case by case: `ConcludePlain` without a JSON document, `JsonUndecodable` when the body does not decode, `JsonOverride`, `JsonStatusOnly`, `JsonErrorOnly` and `JsonNeither` when the document gives both a status and an error, one of them, or neither, and `AccountErrorOverridesStatus` for `IM2ACCOUNT`; `Respond` states the final checks.
- Chain.Apply: the chain uses the corrected `Dpr`, not `DprAsWritten`. As written, `dpr("2\n")` stores `"2\nx"`, which is not a valid ratio, so `ApplyPreservesValid` and `RunPreservesValid` hold for the corrected setter only.
- Transport.GetBytes: uses the corrected `Classify`, which keeps the reason phrase. `ClassifyAsWritten` gives the source's empty message; `AsWrittenDiffersOnlyInMessage` shows that nothing else differs.
- Multipart.BodyRoundTrip: file data that contains `CRLF--XXX` followed by the hash is cut short by a server at its first occurrence. The client does not check for it, and the model does not either.
- `is_numeric` and `intval` cover integers and integer strings: an optional `-` and decimal digits. Floats, exponents, leading white space and a `+` sign are not modelled. A float time-out is therefore not modelled.
- `in_array` is modelled as exact string membership. PHP's loose comparison, where `true` or version-dependent `0` match a keyword, is not modelled.
- A user name or argument that is an array or an object is not modelled. `Value` holds null, booleans, integers and strings.
- The JSON reply is a parameter, `decode`. It stands for `json_decode` and yields `None` when the document is falsy or invalid. The fields `status`, `error` and `code` are an integer, a string and a string. Other JSON types for them are not modelled.
- The stream layer is the parameter `send`. It stands for `fopen`, reading, metadata and `error_get_last`. A failure to read the metadata is folded into the read failure; both give the same message.
- `basename` splits at `/` only. Windows separators and locale-dependent behaviour are not modelled.
- `md5`, `file_get_contents`, `file_exists`, `getcwd` and `phpversion` are parameters. Their results are not modelled, except that `md5` returns 32 lower-case hexadecimal digits.
- The scripts under examples/ and the online tests need the file system or the live service, and are not part of this model.

## Findings

| source | as written | input that shows it | evidently intended | confidence | as-written member | corrected member |
|---|---|---|---|---|---|---|
| src/Request.php:78-81 | PCRE's `$` also matches before a final line feed, so the shape check lets a trailing `"\n"` through; the suffix test then reads the capture, not the end of the string | `dpr("2x\n")` stores `"2x\n"`; `dpr("2\n")` stores `"2\nx"`, which `dpr` itself refuses | refuse a trailing line feed; every stored ratio ends in `x` | medium, not executed | Options.DprAsWritten, Options.DprAsWrittenAcceptsTrailingNewline | Options.Dpr, Options.DprIsIdempotent |
| src/Request.php:162-163 | the status code's integer overwrites the match array before the reason phrase is read from it, so the message reads an offset of an integer and is empty | an answer with status line `HTTP/1.1 400 Bad Request` and no JSON document raises an invalid-argument error with message `""` | the reason phrase `Bad Request` as the message | high, not executed | Transport.ClassifyAsWritten, Transport.AsWrittenLosesReason | Transport.Classify, Transport.PlainAnswer |

=== FILE: api.dfy ===
/** The entry point of the library (src/API.php): an API object holding a
    checked user name, which creates URL and file requests. */
module Api {
  import opened Base
  import opened Php
  import opened Errors
  import opened Options
  import opened Requests

  datatype ApiClient = ApiClient(username: Bytes)

  const UsernameMessage: string :=
    "First argument to ImageOptim\\API must be the username\nGet your username from https://im2.io/register\n"

  /** `new API($username)`: the user name must be a non-empty string other
      than `"0"`, without a space. */
  function NewApi(username: Value): (r: Result<ApiClient>)
    ensures r.Success? <==> username.Str? && username.s != "" && username.s != "0" && ' ' !in username.s
    ensures r.Success? ==> r.value == ApiClient(username.s)
    ensures r.Failure? ==> r == Throw(InvalidArgument, UsernameMessage)
  {
    if !Truthy(username) || !username.Str? || ' ' in username.s then Throw(InvalidArgument, UsernameMessage)
    else Success(ApiClient(username.s))
  }

  /** `imageFromURL($url)`. */
  function ImageFromUrl(api: ApiClient, url: Value): (r: Result<Request>) {
    NewUrlRequest(Str(api.username), url)
  }

  /** `imageFromPath($file)`; the file system facts are parameters. */
  function ImageFromPath(api: ApiClient, path: Value, fileExists: Bytes -> bool, cwd: Bytes): (r: Result<Request>) {
    NewFileRequest(Str(api.username), path, fileExists, cwd)
  }

  /** The user name an API object accepted is never the reason a request
      cannot be created: a URL request fails only for a URL that is not
      absolute, a file request only for a falsy or missing path. */
  lemma RequestsOfAcceptedUser(username: Value, url: Value, path: Value, fileExists: Bytes -> bool, cwd: Bytes)
    requires NewApi(username).Success?
    ensures ImageFromUrl(NewApi(username).value, url).Success? <==> IsAbsoluteUrl(ToBytes(url))
    ensures ImageFromPath(NewApi(username).value, path, fileExists, cwd).Success? <==> Truthy(path) && fileExists(ToBytes(path))
    ensures ImageFromUrl(NewApi(username).value, url).Success? ==>
      ImageFromUrl(NewApi(username).value, url).value == Request(username, Remote(ToBytes(url)), Unset)
  {
  }

  /** Only the space is refused: a tab, or any other byte, is accepted. */
  lemma OnlySpacesAreRefused()
    ensures NewApi(Str("test\ttest")).Success?
    ensures NewApi(Str("test test")).Failure?
    ensures NewApi(Str("0")).Failure? && NewApi(Int(5)).Failure? && NewApi(Null).Failure?
  {
    var spaced: Bytes := "test test";
    assert spaced[4] == ' ';
  }

  /** A request created through the API has unset, hence valid, options, and
      its API URL names the user. */
  lemma ApiRequestUrl(username: Value, url: Value)
    requires NewApi(username).Success? && ImageFromUrl(NewApi(username).value, url).Success?
    ensures Valid(ImageFromUrl(NewApi(username).value, url).value.options)
    ensures ParseApiUrl(ApiUrl(ImageFromUrl(NewApi(username).value, url).value)).Some?
    ensures ParseApiUrl(ApiUrl(ImageFromUrl(NewApi(username).value, url).value)).value.0 == username.s
  {
    ApiUrlRoundTrip(ImageFromUrl(NewApi(username).value, url).value);
  }
}

=== FILE: base.dfy ===
/** Byte strings, an Option type and the small sequence toolkit (decimal
    digits, join, split) that the rest of the model is written in. */
module Base {

  /** PHP strings are byte strings: one `Byte` stands for one byte. */
  type Byte = c: char | c as int < 256
  type Bytes = seq<Byte>

  datatype Option<+T> = None | Some(value: T)

  predicate IsDigit(c: char) {
    '0' <= c <= '9'
  }

  predicate AllDigits(s: Bytes) {
    forall i | 0 <= i < |s| :: IsDigit(s[i])
  }

  function DigitValue(c: Byte): (d: nat)
    requires IsDigit(c)
    ensures d < 10
  {
    c as int - '0' as int
  }

  function DigitChar(d: nat): (c: Byte)
    requires d < 10
    ensures IsDigit(c) && DigitValue(c) == d
  {
    ('0' as int + d) as char
  }

  /** The number a string of decimal digits denotes, most significant digit first. */
  function DigitsValue(s: Bytes): (r: nat)
    requires AllDigits(s)
  {
    if |s| == 0 then 0 else DigitsValue(s[..|s| - 1]) * 10 + DigitValue(s[|s| - 1])
  }

  /** The shortest decimal spelling of `n`: no leading zero unless `n` is 0. */
  function NatDigits(n: nat): (r: Bytes)
    ensures 0 < |r| && AllDigits(r)
    ensures r[0] == '0' ==> n == 0 && r == "0"
  {
    if n < 10 then [DigitChar(n)] else NatDigits(n / 10) + [DigitChar(n % 10)]
  }

  lemma {:induction false} DigitsValueOfNatDigits(n: nat)
    ensures DigitsValue(NatDigits(n)) == n
  {
    if n >= 10 {
      var s := NatDigits(n);
      assert s[..|s| - 1] == NatDigits(n / 10);
      DigitsValueOfNatDigits(n / 10);
    }
  }

  /** How PHP turns an integer into a string: decimal, with a leading `-` when negative. */
  function Decimal(i: int): (r: Bytes)
    ensures 0 < |r|
  {
    if i < 0 then "-" + NatDigits(-i) else NatDigits(i)
  }

  predicate StartsWith(s: Bytes, prefix: Bytes) {
    |prefix| <= |s| && s[..|prefix|] == prefix
  }

  predicate EndsWith(s: Bytes, suffix: Bytes) {
    |suffix| <= |s| && s[|s| - |suffix|..] == suffix
  }

  lemma ConcatEnds(a: Bytes, b: Bytes)
    ensures StartsWith(a + b, a) && EndsWith(a + b, b)
  {
    assert (a + b)[..|a|] == a;
    assert (a + b)[|a|..] == b;
  }

  lemma StartsWithExtended(s: Bytes, prefix: Bytes, t: Bytes)
    requires StartsWith(s, prefix)
    ensures StartsWith(s + t, prefix)
  {
    assert (s + t)[..|prefix|] == s[..|prefix|];
  }

  /** Position of the first `c` in `s`, or `|s|` when there is none. */
  function IndexOf(s: Bytes, c: Byte): (i: nat)
    ensures i <= |s|
    ensures i < |s| ==> s[i] == c
    ensures forall j | 0 <= j < i :: s[j] != c
  {
    if |s| == 0 then 0 else if s[0] == c then 0 else 1 + IndexOf(s[1..], c)
  }

  /** The first `c` in `p + [c] + rest` is the one right after `p` when `p` has none. */
  lemma {:induction false} IndexOfPastPrefix(p: Bytes, c: Byte, rest: Bytes)
    requires c !in p
    ensures IndexOf(p + [c] + rest, c) == |p|
  {
    if |p| > 0 {
      assert (p + [c] + rest)[1..] == p[1..] + [c] + rest;
      IndexOfPastPrefix(p[1..], c, rest);
    }
  }

  /** PHP's `implode(sep, parts)`. */
  function Join(parts: seq<Bytes>, sep: Byte): (r: Bytes) {
    if |parts| == 0 then []
    else if |parts| == 1 then parts[0]
    else parts[0] + [sep] + Join(parts[1..], sep)
  }

  /** PHP's `explode(sep, s)`: the maximal pieces of `s` between occurrences of `sep`. */
  function Split(s: Bytes, sep: Byte): (r: seq<Bytes>)
    ensures 0 < |r|
    decreases |s|
  {
    var i := IndexOf(s, sep);
    if i == |s| then [s] else [s[..i]] + Split(s[i + 1..], sep)
  }

  lemma JoinPair(a: Bytes, b: Bytes, sep: Byte)
    ensures Join([a, b], sep) == a + [sep] + b
  {
    assert [a, b][1..] == [b];
  }

  lemma JoinTriple(a: Bytes, b: Bytes, c: Bytes, sep: Byte)
    ensures Join([a, b, c], sep) == a + [sep] + b + [sep] + c
  {
    assert [a, b, c][1..] == [b, c];
    JoinPair(b, c, sep);
  }

  /** Splitting undoes joining whenever no part contains the separator. */
  lemma {:induction false} SplitJoin(parts: seq<Bytes>, sep: Byte)
    requires 0 < |parts|
    requires forall k | 0 <= k < |parts| :: sep !in parts[k]
    ensures Split(Join(parts, sep), sep) == parts
  {
    var p := parts[0];
    assert sep !in p;
    if |parts| == 1 {
      assert IndexOf(p, sep) == |p|;
    } else {
      var rest := Join(parts[1..], sep);
      var s := p + [sep] + rest;
      assert Join(parts, sep) == s;
      IndexOfPastPrefix(p, sep, rest);
      assert s[..|p|] == p;
      assert s[|p| + 1..] == rest;
      assert Split(s, sep) == [p] + Split(rest, sep);
      SplitJoin(parts[1..], sep);
      assert parts == [p] + parts[1..];
    }
  }

  /** A byte that occurs in no part, and is not the separator, does not occur in the join. */
  lemma {:induction false} JoinExcludes(parts: seq<Bytes>, sep: Byte, c: Byte)
    requires c != sep
    requires forall k | 0 <= k < |parts| :: c !in parts[k]
    ensures c !in Join(parts, sep)
  {
    if |parts| > 1 {
      JoinExcludes(parts[1..], sep, c);
    }
  }
}

=== FILE: chain.dfy ===
/** The fluent interface of src/Request.php as data: a chain of setter calls
    applied left to right, stopping at the first exception. The lemmas say
    that every setter validates before it writes, writes only its own fields,
    and that calls on different fields commute. */
module Chain {
  import opened Base
  import opened Php
  import opened Errors
  import opened Options

  /** One call of the fluent interface. */
  datatype Call =
    | ResizeCall(width: Value, heightOrFit: Value, fit: Value)
    | TimeoutCall(timeout: Value)
    | BgcolorCall(color: Value)
    | DprCall(dpr: Value)
    | QualityCall(quality: Value)
    | OptimizeCall

  /** The groups of fields a setter writes; width, height and fit form one group. */
  datatype Field = Size | DprField | QualityField | TimeoutField | BgcolorField

  function Writes(c: Call): (r: set<Field>) {
    match c
    case ResizeCall(_, _, _) => {Size}
    case TimeoutCall(_) => {TimeoutField}
    case BgcolorCall(_) => {BgcolorField}
    case DprCall(_) => {DprField}
    case QualityCall(_) => {QualityField}
    case OptimizeCall => {}
  }

  function Apply(o: Options, c: Call): (r: Result<Options>) {
    match c
    case ResizeCall(w, hf, f) => Resize(o, w, hf, f)
    case TimeoutCall(t) => Timeout(o, t)
    case BgcolorCall(color) => Bgcolor(o, color)
    case DprCall(d) => Dpr(o, d)
    case QualityCall(q) => Quality(o, q)
    case OptimizeCall => Success(o)
  }

  /** A chain of calls, left to right; the first exception ends the chain. */
  function Run(o: Options, calls: seq<Call>): (r: Result<Options>)
    decreases |calls|
  {
    if |calls| == 0 then Success(o)
    else
      match Apply(o, calls[0])
      case Failure(e) => Failure(e)
      case Success(next) => Run(next, calls[1..])
  }

  /** `o` with the field groups in `fs` taken from `n`. */
  function Overwrite(o: Options, n: Options, fs: set<Field>): (r: Options) {
    Options(
      if Size in fs then n.width else o.width,
      if Size in fs then n.height else o.height,
      if Size in fs then n.fit else o.fit,
      if DprField in fs then n.dpr else o.dpr,
      if QualityField in fs then n.quality else o.quality,
      if TimeoutField in fs then n.timeout else o.timeout,
      if BgcolorField in fs then n.bgcolor else o.bgcolor)
  }

  /** Every setter validates its arguments without looking at the current
      options, and on success writes only its own fields: the result is the
      old options overwritten with what the same call does to unset options. */
  lemma ApplyWritesOnlyItsFields(o: Options, c: Call)
    ensures Apply(o, c).Success? <==> Apply(Unset, c).Success?
    ensures Apply(o, c).Failure? ==> Apply(o, c) == Apply(Unset, c)
    ensures Apply(o, c).Success? ==>
      Apply(o, c).value == Overwrite(o, Apply(Unset, c).value, Writes(c))
  {
  }

  /** Successful setters keep the options valid. */
  lemma ApplyPreservesValid(o: Options, c: Call)
    requires Valid(o)
    ensures Apply(o, c).Success? ==> Valid(Apply(o, c).value)
  {
  }

  lemma {:induction false} RunPreservesValid(o: Options, calls: seq<Call>)
    requires Valid(o)
    ensures Run(o, calls).Success? ==> Valid(Run(o, calls).value)
    decreases |calls|
  {
    if |calls| > 0 {
      ApplyPreservesValid(o, calls[0]);
      if Apply(o, calls[0]).Success? {
        RunPreservesValid(Apply(o, calls[0]).value, calls[1..]);
      }
    }
  }

  /** Two calls that write different fields can be made in either order. */
  lemma DisjointCallsCommute(o: Options, c1: Call, c2: Call)
    requires Writes(c1) !! Writes(c2)
    ensures Run(o, [c1, c2]).Success? <==> Run(o, [c2, c1]).Success?
    ensures Run(o, [c1, c2]).Success? ==> Run(o, [c1, c2]) == Run(o, [c2, c1])
  {
    ApplyWritesOnlyItsFields(o, c1);
    ApplyWritesOnlyItsFields(o, c2);
    if Apply(o, c1).Success? {
      ApplyWritesOnlyItsFields(Apply(o, c1).value, c2);
    }
    if Apply(o, c2).Success? {
      ApplyWritesOnlyItsFields(Apply(o, c2).value, c1);
    }
    assert [c1, c2][1..] == [c2];
    assert [c2, c1][1..] == [c1];
  }

  /** A later call that writes every field an earlier one wrote makes the
      earlier one irrelevant: a later `resize` fully replaces an earlier one. */
  lemma LaterCallOverrides(o: Options, c1: Call, c2: Call)
    requires Writes(c1) <= Writes(c2)
    requires Apply(o, c1).Success?
    ensures Run(o, [c1, c2]) == Apply(o, c2)
  {
    ApplyWritesOnlyItsFields(o, c1);
    ApplyWritesOnlyItsFields(o, c2);
    var o1 := Apply(o, c1).value;
    ApplyWritesOnlyItsFields(o1, c2);
    assert [c1, c2][1..] == [c2];
    assert Run(o, [c1, c2]) == Run(o1, [c2]);
    if Apply(o1, c2).Success? {
      assert Run(o1, [c2]) == Run(Apply(o1, c2).value, []);
    }
  }

  /** Repeating a successful call changes nothing. */
  lemma ApplyIsIdempotent(o: Options, c: Call)
    requires Apply(o, c).Success?
    ensures Apply(Apply(o, c).value, c) == Apply(o, c)
  {
    LaterCallOverrides(o, c, c);
    assert [c, c][1..] == [c];
  }
}

=== FILE: errors.dfy ===
/** The library's exception taxonomy, and a Result type that carries either a
    value or the exception an operation throws. */
module Errors {

  /** One constructor per exception class the library throws. */
  datatype Kind =
    | InvalidArgument   // a malformed local argument, or a 4xx answer other than 403/404
    | Network           // transport failure, unreadable headers, time-out
    | Api               // 5xx answer, or an unreadable upload file
    | NotFound          // 404
    | OriginServer      // 403
    | AccessDenied      // the service rejected the account (`IM2ACCOUNT`)

  /** An exception: class, message and the integer code PHP exceptions carry (0 by default). */
  datatype Error = Error(kind: Kind, message: string, code: int)

  datatype Result<+T> = Success(value: T) | Failure(error: Error) {

    predicate IsFailure() {
      Failure?
    }

    function PropagateFailure<U>(): (r: Result<U>)
      requires Failure?
    {
      Failure(error)
    }

    function Extract(): (r: T)
      requires Success?
    {
      value
    }
  }

  /** An exception constructed with a message only, so with code 0. */
  function Throw<T>(kind: Kind, message: string): (r: Result<T>) {
    Failure(Error(kind, message, 0))
  }
}

=== FILE: multipart.dfy ===
/** The upload a file request sends (src/FileRequest.php, `getBytes`): a
    `multipart/form-data` body with one part holding the file, and the request
    headers that describe it. A reader for the body, which stops at the first
    delimiter as a server does, is its partner: it shows that the file name and
    the file data are read back from what is sent exactly when the data does
    not contain the delimiter. Readers for the headers show that they declare
    the body's length and the boundary the body uses. */
module Multipart {
  import opened Base

  // addslashes and its inverse

  /** The escape `addslashes` writes for one byte: NUL as `\0`, and a backslash
      before `'`, `"` and `\`. */
  function EscapeByte(c: Byte): (r: Bytes) {
    if c == 0 as char then ['\\', '0']
    else if c == '\'' || c == '"' || c == '\\' then ['\\', c]
    else [c]
  }

  /** PHP's `addslashes`. */
  function AddSlashes(s: Bytes): (r: Bytes) {
    if |s| == 0 then [] else EscapeByte(s[0]) + AddSlashes(s[1..])
  }

  /** Reads escaped text up to the first `"` that is not escaped: the unescaped
      text and what follows the quote, or `None` when there is no such quote. */
  function ReadQuoted(t: Bytes): (r: Option<(Bytes, Bytes)>)
    decreases |t|
  {
    if |t| == 0 then None
    else if t[0] == '"' then Some(([], t[1..]))
    else if t[0] == '\\' && 2 <= |t| then
      var c: Byte := if t[1] == '0' then 0 as char else t[1];
      match ReadQuoted(t[2..])
      case None => None
      case Some((s, rest)) => Some(([c] + s, rest))
    else if t[0] == '\\' then None
    else
      match ReadQuoted(t[1..])
      case None => None
      case Some((s, rest)) => Some(([t[0]] + s, rest))
  }

  /** An escaped text followed by a quote reads back as the text, whatever follows. */
  lemma {:induction false} ReadQuotedAddSlashes(s: Bytes, rest: Bytes)
    ensures ReadQuoted(AddSlashes(s) + ['"'] + rest) == Some((s, rest))
  {
    if |s| == 0 {
      assert AddSlashes(s) + ['"'] + rest == ['"'] + rest;
      assert (['"'] + rest)[1..] == rest;
    } else {
      var e := EscapeByte(s[0]);
      var tail := AddSlashes(s[1..]) + ['"'] + rest;
      ReadQuotedAddSlashes(s[1..], rest);
      assert AddSlashes(s) + ['"'] + rest == e + tail;
      assert (e + tail)[|e|..] == tail;
      assert [s[0]] + s[1..] == s;
    }
  }

  // basename

  function TrimTrailingSlashes(p: Bytes): (q: Bytes)
    ensures |q| <= |p| && q == p[..|q|]
    ensures |q| == 0 || q[|q| - 1] != '/'
  {
    if |p| > 0 && p[|p| - 1] == '/' then TrimTrailingSlashes(p[..|p| - 1]) else p
  }

  /** The bytes after the last `/`. */
  function AfterLastSlash(q: Bytes): (r: Bytes)
    ensures '/' !in r
    ensures EndsWith(q, r)
    ensures |r| < |q| ==> q[|q| - |r| - 1] == '/'
  {
    if |q| == 0 || q[|q| - 1] == '/' then []
    else AfterLastSlash(q[..|q| - 1]) + [q[|q| - 1]]
  }

  /** PHP's `basename` with `/` as the separator: trailing separators are
      dropped, then the last component is taken. */
  function Basename(p: Bytes): (r: Bytes) {
    AfterLastSlash(TrimTrailingSlashes(p))
  }

  /** The name of a file in a directory is its base name, whatever the directory. */
  lemma BasenameOfPath(dir: Bytes, name: Bytes)
    requires 0 < |name| && '/' !in name
    ensures Basename(dir + "/" + name) == name
    ensures Basename(name) == name
  {
    AfterLastSlashOfSuffix(dir + "/", name);
    AfterLastSlashOfSuffix([], name);
    assert [] + name == name;
  }

  lemma {:induction false} AfterLastSlashOfSuffix(dir: Bytes, name: Bytes)
    requires |dir| == 0 || dir[|dir| - 1] == '/'
    requires '/' !in name
    ensures AfterLastSlash(dir + name) == name
    decreases |name|
  {
    var q := dir + name;
    if |name| > 0 {
      assert q[..|q| - 1] == dir + name[..|name| - 1];
      AfterLastSlashOfSuffix(dir, name[..|name| - 1]);
      assert name[..|name| - 1] + [name[|name| - 1]] == name;
    } else {
      assert q == dir;
    }
  }

  // The body

  const Disposition: Bytes := "Content-Disposition: form-data; "
  const FileField: Bytes := "name=\"file\"; filename=\""
  const OctetStream: Bytes := "Content-Type: application/octet-stream\r\n"
  const BinaryEncoding: Bytes := "Content-Transfer-Encoding: binary\r\n"

  predicate IsLowerHexDigit(c: char) {
    '0' <= c <= '9' || 'a' <= c <= 'f'
  }

  /** What PHP's `md5` returns: 32 lower-case hexadecimal digits. */
  type Digest = h: Bytes | |h| == 32 && forall k | 0 <= k < |h| :: IsLowerHexDigit(h[k])
    witness "00000000000000000000000000000000"

  /** `"XXX$contentHash"`. */
  function Boundary(contentHash: Bytes): (b: Bytes)
    ensures StartsWith(b, "XXX") && b[3..] == contentHash
  {
    "XXX" + contentHash
  }

  /** Everything before the escaped file name. */
  function Opening(boundary: Bytes): (r: Bytes) {
    "--" + boundary + "\r\n" + Disposition + FileField
  }

  /** Everything between the file name's closing quote and the file data. */
  const PartHeadEnd: Bytes := "\r\n" + OctetStream + BinaryEncoding + "\r\n"

  /** The delimiter that ends a part, section 5.1.1 of RFC 2046: CRLF, `--`, the boundary. */
  function Delimiter(boundary: Bytes): (r: Bytes) {
    "\r\n--" + boundary
  }

  /** The close delimiter after the last part: the delimiter followed by `--`. */
  function Closing(boundary: Bytes): (r: Bytes) {
    Delimiter(boundary) + "--"
  }

  /** `d` occurs in `s` at position `j`. */
  predicate OccursAt(s: Bytes, d: Bytes, j: nat) {
    j + |d| <= |s| && s[j..j + |d|] == d
  }

  predicate Contains(s: Bytes, d: Bytes) {
    exists j | 0 <= j <= |s| :: OccursAt(s, d, j)
  }

  /** The first position at or after `from` where `d` occurs in `s`, or `|s|`. */
  function Find(s: Bytes, d: Bytes, from: nat): (i: nat)
    requires from <= |s|
    ensures from <= i <= |s|
    ensures i < |s| ==> OccursAt(s, d, i)
    ensures forall j | from <= j < i :: !OccursAt(s, d, j)
    decreases |s| - from
  {
    if from == |s| || OccursAt(s, d, from) then from else Find(s, d, from + 1)
  }

  /** A part: its opening, the escaped name and its closing quote, the rest of
      the part headers, the data, and the close delimiter. */
  function Framed(opening: Bytes, name: Bytes, headEnd: Bytes, data: Bytes, delimiter: Bytes): (r: Bytes) {
    opening + AddSlashes(name) + ['"'] + headEnd + data + (delimiter + "--")
  }

  /** The data of a part and what follows it, read as a server does: the data
      ends at the first delimiter, and that delimiter must be the close
      delimiter that ends the body. */
  function ReadData(p: Bytes, delimiter: Bytes): (r: Option<Bytes>) {
    var i := Find(p, delimiter, 0);
    if i < |p| && p[i..] == delimiter + "--" then Some(p[..i]) else None
  }

  /** Reads a part back into its name and data. */
  function ParseFramed(body: Bytes, opening: Bytes, headEnd: Bytes, delimiter: Bytes): (r: Option<(Bytes, Bytes)>) {
    if !StartsWith(body, opening) then None
    else
      match ReadQuoted(body[|opening|..])
      case None => None
      case Some((name, rest)) =>
        if !StartsWith(rest, headEnd) then None
        else
          match ReadData(rest[|headEnd|..], delimiter)
          case None => None
          case Some(data) => Some((name, data))
  }

  /** Nothing that starts inside `data` is the delimiter, not even one that
      runs on into the close delimiter. */
  predicate NoEarlyDelimiter(data: Bytes, delimiter: Bytes) {
    forall j | 0 <= j < |data| :: !OccursAt(data + (delimiter + "--"), delimiter, j)
  }

  /** The data reads back exactly when no delimiter starts inside it. */
  lemma ReadDataRoundTrip(data: Bytes, delimiter: Bytes)
    ensures ReadData(data + (delimiter + "--"), delimiter) == Some(data) <==> NoEarlyDelimiter(data, delimiter)
  {
    var p := data + (delimiter + "--");
    assert OccursAt(p, delimiter, |data|) by {
      assert p[|data|..|data| + |delimiter|] == delimiter;
    }
    var i := Find(p, delimiter, 0);
    if NoEarlyDelimiter(data, delimiter) {
      assert i == |data|;
      assert p[i..] == delimiter + "--";
      assert p[..i] == data;
    }
  }

  /** The opening, the name and the part headers are read back, leaving the data and the close delimiter. */
  lemma FramedHead(opening: Bytes, name: Bytes, headEnd: Bytes, data: Bytes, delimiter: Bytes)
    ensures ParseFramed(Framed(opening, name, headEnd, data, delimiter), opening, headEnd, delimiter)
      == match ReadData(data + (delimiter + "--"), delimiter)
         case None => None
         case Some(d) => Some((name, d))
  {
    var p := data + (delimiter + "--");
    var rest := headEnd + p;
    var body := Framed(opening, name, headEnd, data, delimiter);
    assert body == opening + (AddSlashes(name) + ['"'] + rest);
    assert body[..|opening|] == opening;
    assert body[|opening|..] == AddSlashes(name) + ['"'] + rest;
    ReadQuotedAddSlashes(name, rest);
    assert ReadQuoted(body[|opening|..]) == Some((name, rest));
    assert StartsWith(rest, headEnd) && rest[|headEnd|..] == p by {
      assert rest[..|headEnd|] == headEnd;
    }
  }

  /** The part reads back as its name and data exactly when no delimiter starts inside the data. */
  lemma FramedRoundTrip(opening: Bytes, name: Bytes, headEnd: Bytes, data: Bytes, delimiter: Bytes)
    ensures ParseFramed(Framed(opening, name, headEnd, data, delimiter), opening, headEnd, delimiter) == Some((name, data))
      <==> NoEarlyDelimiter(data, delimiter)
  {
    FramedHead(opening, name, headEnd, data, delimiter);
    ReadDataRoundTrip(data, delimiter);
  }

  /** The request body for a file called `name` holding `data`. */
  function Body(boundary: Bytes, name: Bytes, data: Bytes): (r: Bytes) {
    Framed(Opening(boundary), name, PartHeadEnd, data, Delimiter(boundary))
  }

  function ParseBody(body: Bytes, boundary: Bytes): (r: Option<(Bytes, Bytes)>) {
    ParseFramed(body, Opening(boundary), PartHeadEnd, Delimiter(boundary))
  }

  lemma FramedEnds(opening: Bytes, name: Bytes, headEnd: Bytes, data: Bytes, delimiter: Bytes, start: Bytes)
    requires StartsWith(opening, start)
    ensures StartsWith(Framed(opening, name, headEnd, data, delimiter), start)
    ensures EndsWith(Framed(opening, name, headEnd, data, delimiter), delimiter + "--")
  {
    var middle := AddSlashes(name) + ['"'] + headEnd + data;
    var closing := delimiter + "--";
    assert Framed(opening, name, headEnd, data, delimiter) == opening + middle + closing;
    StartsWithExtended(opening, start, middle + closing);
    assert opening + (middle + closing) == opening + middle + closing;
    ConcatEnds(opening + middle, closing);
  }

  lemma OpeningStartsWithDelimiter(boundary: Bytes)
    ensures StartsWith(Opening(boundary), "--" + boundary + "\r\n")
  {
    var start: Bytes := "--" + boundary + "\r\n";
    ConcatEnds(start, Disposition);
    StartsWithExtended(start + Disposition, start, FileField);
  }

  /** The body opens with the delimiter line and ends with the close delimiter. */
  lemma BodyDelimiters(boundary: Bytes, name: Bytes, data: Bytes)
    ensures StartsWith(Body(boundary, name, data), "--" + boundary + "\r\n")
    ensures EndsWith(Body(boundary, name, data), "\r\n--" + boundary + "--")
  {
    OpeningStartsWithDelimiter(boundary);
    FramedEnds(Opening(boundary), name, PartHeadEnd, data, Delimiter(boundary), "--" + boundary + "\r\n");
  }

  /** A delimiter that starts inside the data cannot run on into the close
      delimiter when the boundary has no carriage return: the close delimiter
      starts with one, and the delimiter has it only in front. */
  lemma NoOverlap(data: Bytes, boundary: Bytes)
    requires '\r' !in boundary
    ensures NoEarlyDelimiter(data, Delimiter(boundary)) <==> !Contains(data, Delimiter(boundary))
  {
    var d := Delimiter(boundary);
    var p := data + (d + "--");
    forall j | 0 <= j < |data| && j + |d| <= |data|
      ensures OccursAt(p, d, j) <==> OccursAt(data, d, j)
    {
      assert p[j..j + |d|] == data[j..j + |d|];
    }
    forall j | 0 <= j < |data| && |data| < j + |d|
      ensures !OccursAt(p, d, j)
    {
      var k := |data| - j;
      assert p[j..j + |d|][k] == p[|data|] == '\r';
      assert d[k] != '\r' by {
        if 4 <= k {
          assert d[k] == boundary[k - 4];
        }
      }
    }
    if Contains(data, d) {
      var j :| 0 <= j <= |data| && OccursAt(data, d, j);
      assert j < |data|;
    }
  }

  /** The body reads back as the file name and the file data exactly when the
      data does not contain the delimiter; data that contains it is cut short
      at its first occurrence, and the client does not check for it. */
  lemma BodyRoundTrip(boundary: Bytes, name: Bytes, data: Bytes)
    requires '\r' !in boundary
    ensures ParseBody(Body(boundary, name, data), boundary) == Some((name, data))
      <==> !Contains(data, Delimiter(boundary))
  {
    FramedRoundTrip(Opening(boundary), name, PartHeadEnd, data, Delimiter(boundary));
    NoOverlap(data, boundary);
  }

  /** The boundary made from an MD5 digest has no carriage return. */
  lemma DigestBoundary(hash: Digest)
    ensures '\r' !in Boundary(hash) && '\n' !in hash && '\r' !in hash
  {
    assert forall k | 0 <= k < |hash| :: IsLowerHexDigit(hash[k]);
  }

  // The headers

  const LengthField: Bytes := "Content-Length: "
  const Md5Field: Bytes := "Content-MD5: "
  const TypeField: Bytes := "Content-Type: "
  const FormData: Bytes := "multipart/form-data, boundary="

  /** One header line: the name, the value, CRLF. */
  function HeaderLine(name: Bytes, value: Bytes): (r: Bytes) {
    name + value + "\r\n"
  }

  /** The headers describing the body: its length, the hash, and the boundary. */
  function UploadHeaders(content: Bytes, contentHash: Bytes): (r: Bytes) {
    HeaderLine(LengthField, Decimal(|content|))
      + HeaderLine(Md5Field, contentHash)
      + HeaderLine(TypeField, FormData + Boundary(contentHash))
  }

  /** A header block split into its lines at line feeds. */
  function Lines(h: Bytes): (ls: seq<Bytes>)
    ensures 0 < |ls|
    decreases |h|
  {
    var i := IndexOf(h, '\n');
    if i == |h| then [h] else [h[..i]] + Lines(h[i + 1..])
  }

  /** The value in the first line that starts with `name`, up to its carriage return. */
  function FieldIn(lines: seq<Bytes>, name: Bytes): (r: Option<Bytes>) {
    if |lines| == 0 then None
    else if StartsWith(lines[0], name) then
      var t := lines[0][|name|..];
      Some(t[..IndexOf(t, '\r')])
    else FieldIn(lines[1..], name)
  }

  /** The value of the header `name` in a header block. */
  function Field(headers: Bytes, name: Bytes): (r: Option<Bytes>) {
    FieldIn(Lines(headers), name)
  }

  /** The declared `Content-Length`. */
  function ContentLength(headers: Bytes): (r: Option<nat>) {
    var v := Field(headers, LengthField);
    if v.Some? && 0 < |v.value| && AllDigits(v.value) then Some(DigitsValue(v.value)) else None
  }

  /** The declared `Content-MD5`. */
  function ContentMd5(headers: Bytes): (r: Option<Bytes>) {
    Field(headers, Md5Field)
  }

  /** The `boundary=` parameter of a `multipart/form-data` content type. */
  function DeclaredBoundary(headers: Bytes): (r: Option<Bytes>) {
    var v := Field(headers, TypeField);
    if v.Some? && StartsWith(v.value, FormData) then Some(v.value[|FormData|..]) else None
  }

  /** A header line whose name and value hold no line feed is one line of the block, without its LF. */
  lemma LinesOfHeaderLine(name: Bytes, value: Bytes, more: Bytes)
    requires '\n' !in name && '\n' !in value
    ensures Lines(HeaderLine(name, value) + more) == [name + value + "\r"] + Lines(more)
  {
    var a := name + value + "\r";
    assert HeaderLine(name, value) + more == a + ['\n'] + more;
    IndexOfPastPrefix(a, '\n', more);
    var h := a + ['\n'] + more;
    assert h[..|a|] == a;
    assert h[|a| + 1..] == more;
  }

  /** The value of a line `name + value + CR`. */
  lemma FieldOfLine(name: Bytes, value: Bytes, lines: seq<Bytes>)
    requires '\r' !in value
    ensures FieldIn([name + value + "\r"] + lines, name) == Some(value)
  {
    var l := name + value + "\r";
    assert ([l] + lines)[0] == l;
    assert l[..|name|] == name;
    assert l[|name|..] == value + ['\r'] + [];
    IndexOfPastPrefix(value, '\r', []);
    assert (value + ['\r'] + [])[..|value|] == value;
  }

  /** A line that does not start with `name` is passed over. */
  lemma FieldPastLine(l: Bytes, name: Bytes, lines: seq<Bytes>)
    requires !StartsWith(l, name)
    ensures FieldIn([l] + lines, name) == FieldIn(lines, name)
  {
    assert ([l] + lines)[1..] == lines;
  }

  lemma ThreeLines(n1: Bytes, v1: Bytes, n2: Bytes, v2: Bytes, n3: Bytes, v3: Bytes, more: Bytes)
    requires '\n' !in n1 && '\n' !in v1 && '\n' !in n2 && '\n' !in v2 && '\n' !in n3 && '\n' !in v3
    ensures Lines(HeaderLine(n1, v1) + HeaderLine(n2, v2) + HeaderLine(n3, v3) + more)
      == [n1 + v1 + "\r"] + ([n2 + v2 + "\r"] + ([n3 + v3 + "\r"] + Lines(more)))
  {
    var x, y, z := HeaderLine(n1, v1), HeaderLine(n2, v2), HeaderLine(n3, v3);
    assert x + y + z + more == x + (y + (z + more));
    LinesOfHeaderLine(n3, v3, more);
    LinesOfHeaderLine(n2, v2, z + more);
    LinesOfHeaderLine(n1, v1, y + (z + more));
  }

  /** The upload headers are three lines, whatever headers follow. */
  lemma UploadLines(content: Bytes, hash: Digest, more: Bytes)
    ensures Lines(UploadHeaders(content, hash) + more)
      == [LengthField + Decimal(|content|) + "\r"] + ([Md5Field + hash + "\r"] + ([TypeField + (FormData + Boundary(hash)) + "\r"] + Lines(more)))
  {
    DigestBoundary(hash);
    var n := Decimal(|content|);
    assert '\n' !in n by {
      assert forall k | 0 <= k < |n| :: IsDigit(n[k]);
    }
    ThreeLines(LengthField, n, Md5Field, hash, TypeField, FormData + Boundary(hash), more);
  }

  /** A line that differs from `name` at some position within both does not start with it. */
  lemma DiffersAt(l: Bytes, name: Bytes, k: nat)
    requires k < |name| && k < |l| && l[k] != name[k]
    ensures !StartsWith(l, name)
  {
    if |name| <= |l| {
      assert l[..|name|][k] == l[k];
    }
  }

  lemma LengthOfUpload(content: Bytes, hash: Digest, more: Bytes)
    ensures Field(UploadHeaders(content, hash) + more, LengthField) == Some(Decimal(|content|))
  {
    var n := Decimal(|content|);
    UploadLines(content, hash, more);
    assert '\r' !in n by {
      assert forall k | 0 <= k < |n| :: IsDigit(n[k]);
    }
    FieldOfLine(LengthField, n, [Md5Field + hash + "\r"] + ([TypeField + (FormData + Boundary(hash)) + "\r"] + Lines(more)));
  }

  lemma FieldOfSecondLine(l1: Bytes, name: Bytes, value: Bytes, tail: seq<Bytes>)
    requires !StartsWith(l1, name) && '\r' !in value
    ensures FieldIn([l1] + ([name + value + "\r"] + tail), name) == Some(value)
  {
    FieldPastLine(l1, name, [name + value + "\r"] + tail);
    FieldOfLine(name, value, tail);
  }

  lemma Md5OfUpload(content: Bytes, hash: Digest, more: Bytes)
    ensures Field(UploadHeaders(content, hash) + more, Md5Field) == Some(hash)
  {
    DigestBoundary(hash);
    var l1 := LengthField + Decimal(|content|) + "\r";
    UploadLines(content, hash, more);
    DiffersAt(l1, Md5Field, 8);
    FieldOfSecondLine(l1, Md5Field, hash, [TypeField + (FormData + Boundary(hash)) + "\r"] + Lines(more));
  }

  lemma FieldOfThirdLine(l1: Bytes, l2: Bytes, name: Bytes, value: Bytes, tail: seq<Bytes>)
    requires !StartsWith(l1, name) && !StartsWith(l2, name) && '\r' !in value
    ensures FieldIn([l1] + ([l2] + ([name + value + "\r"] + tail)), name) == Some(value)
  {
    FieldPastLine(l1, name, [l2] + ([name + value + "\r"] + tail));
    FieldOfSecondLine(l2, name, value, tail);
  }

  lemma TypeOfUpload(content: Bytes, hash: Digest, more: Bytes)
    ensures Field(UploadHeaders(content, hash) + more, TypeField) == Some(FormData + Boundary(hash))
  {
    DigestBoundary(hash);
    var l1 := LengthField + Decimal(|content|) + "\r";
    var l2 := Md5Field + hash + "\r";
    assert '\r' !in FormData;
    UploadLines(content, hash, more);
    DiffersAt(l1, TypeField, 8);
    DiffersAt(l2, TypeField, 8);
    FieldOfThirdLine(l1, l2, TypeField, FormData + Boundary(hash), Lines(more));
  }

  /** The upload headers declare the body's length, the digest, and the boundary
      made from the digest, whatever headers follow. */
  lemma UploadHeadersReadBack(content: Bytes, hash: Digest, more: Bytes)
    ensures ContentLength(UploadHeaders(content, hash) + more) == Some(|content|)
    ensures ContentMd5(UploadHeaders(content, hash) + more) == Some(hash)
    ensures DeclaredBoundary(UploadHeaders(content, hash) + more) == Some(Boundary(hash))
  {
    LengthOfUpload(content, hash, more);
    Md5OfUpload(content, hash, more);
    TypeOfUpload(content, hash, more);
    DigitsValueOfNatDigits(|content|);
    var v := FormData + Boundary(hash);
    assert v[..|FormData|] == FormData && v[|FormData|..] == Boundary(hash);
  }
}

=== FILE: options.dfy ===
/** The request options and their validating setters (`resize`, `timeout`,
    `bgcolor`, `dpr`, `quality`, `optimize`) from src/Request.php. The options
    record is immutable: a setter returns either the exception it throws or
    the updated record. */
module Options {
  import opened Base
  import opened Php
  import opened Errors

  /** The option fields of a request; `None` is PHP's unset (`null`) field. */
  datatype Options = Options(
    width: Option<int>,
    height: Option<int>,
    fit: Option<Bytes>,
    dpr: Option<Bytes>,
    quality: Option<Bytes>,
    timeout: Option<Value>,
    bgcolor: Option<Bytes>)

  /** A freshly constructed request has no options set. */
  const Unset: Options := Options(None, None, None, None, None, None, None)

  const MaxDimension: int := 10000
  const FitKeywords: seq<Bytes> := ["fit", "crop", "scale-down", "pad"]
  const QualityLevels: seq<Bytes> := ["low", "medium", "high", "lossless"]

  predicate InRange(n: int) {
    1 <= n <= MaxDimension
  }

  /** Fit modes that make no sense without a target height. */
  predicate NeedsHeight(fit: Bytes) {
    fit == "crop" || fit == "pad"
  }

  /** What a successful `resize` may store. */
  predicate ValidSize(width: int, height: Option<int>, fit: Option<Bytes>) {
    && InRange(width)
    && (height.Some? ==> InRange(height.value))
    && (fit.Some? ==> fit.value in FitKeywords)
    && (fit.Some? && NeedsHeight(fit.value) ==> height.Some?)
  }

  /** The option values a sequence of successful setter calls can produce. */
  predicate Valid(o: Options) {
    && (o.width.None? ==> o.height.None? && o.fit.None?)
    && (o.width.Some? ==> ValidSize(o.width.value, o.height, o.fit))
    && (o.dpr.Some? ==> DprShape(o.dpr.value) && EndsWith(o.dpr.value, "x"))
    && (o.quality.Some? ==> o.quality.value in QualityLevels)
    && (o.timeout.Some? ==> IsNumeric(o.timeout.value) && IntVal(o.timeout.value) > 0)
    && (o.bgcolor.Some? ==> IsHexString(o.bgcolor.value))
  }

  /** `$this->width = $width; $this->height = $height; $this->fit = $fit;` */
  function SetSize(o: Options, width: int, height: Option<int>, fit: Option<Bytes>): (r: Options) {
    o.(width := Some(width), height := height, fit := fit)
  }

  /** The checks `resize` makes once its arguments are read: width and height
      ranges, the fit keyword, and that `crop` and `pad` come with a height. */
  function CheckSize(o: Options, w: int, h: Option<int>, f: Value): (r: Result<Options>)
    ensures r.Success? <==>
      && InRange(w) && (h.Some? ==> InRange(h.value))
      && (f == Null || (f.Str? && f.s in FitKeywords && (NeedsHeight(f.s) ==> h.Some?)))
    ensures r.Success? ==> r.value == SetSize(o, w, h, if f.Str? then Some(f.s) else None)
    ensures r.Failure? ==> r.error.kind == InvalidArgument
  {
    if !InRange(w) then
      Throw(InvalidArgument, "Width is out of allowed range: " + Decimal(w))
    else if h.Some? && !InRange(h.value) then
      Throw(InvalidArgument, "Height is out of allowed range: " + Decimal(h.value))
    else if f != Null && !(f.Str? && f.s in FitKeywords) then
      Throw(InvalidArgument, "Fit is not one of fit, crop, scale-down, pad. Got: " + ToBytes(f))
    else if h.None? && f.Str? && NeedsHeight(f.s) then
      Throw(InvalidArgument, "Height is required for '" + f.s + "' scaling mode\n"
        + "Please specify height or use 'fit' scaling mode to allow flexible height")
    else
      Success(SetSize(o, w, h, if f.Str? then Some(f.s) else None))
  }

  /** `resize($width, $height_or_fit = null, $fit = null)`: the second argument is
      a height when numeric and a fit mode otherwise; width, height and fit are
      validated together and replaced together. */
  function Resize(o: Options, width: Value, heightOrFit: Value, fit: Value): (r: Result<Options>)
    ensures r.Success? ==>
      && r.value.width.Some?
      && ValidSize(r.value.width.value, r.value.height, r.value.fit)
      && r.value == SetSize(o, r.value.width.value, r.value.height, r.value.fit)
    ensures r.Failure? ==> r.error.kind == InvalidArgument
  {
    if !IsNumeric(width) then
      Throw(InvalidArgument, "Width is not a number: " + ToBytes(width))
    else if heightOrFit != Null && !IsNumeric(heightOrFit) && Truthy(fit) then
      Throw(InvalidArgument, "Height is not a number: " + ToBytes(heightOrFit))
    else if IsNumeric(heightOrFit) then
      CheckSize(o, IntVal(width), Some(IntVal(heightOrFit) as int), fit)
    else if heightOrFit == Null then
      CheckSize(o, IntVal(width), None, fit)
    else
      CheckSize(o, IntVal(width), None, heightOrFit)
  }

  /** `timeout($timeout)`: accepts exactly the positive numbers and stores the argument as given. */
  function Timeout(o: Options, t: Value): (r: Result<Options>)
    ensures r.Success? <==> IsNumeric(t) && IntVal(t) > 0
    ensures r.Success? ==> r.value == o.(timeout := Some(t))
    ensures r.Failure? ==> r.error.kind == InvalidArgument
  {
    if !IsNumeric(t) || IntVal(t) <= 0 then
      Throw(InvalidArgument, "Timeout not a positive number: " + ToBytes(t))
    else
      Success(o.(timeout := Some(t)))
  }

  predicate IsHexDigit(c: char) {
    '0' <= c <= '9' || 'a' <= c <= 'f' || 'A' <= c <= 'F'
  }

  predicate IsHexString(s: Bytes) {
    0 < |s| && forall i | 0 <= i < |s| :: IsHexDigit(s[i])
  }

  /** The capture of `/^#?([0-9a-f]+)$/i`. In PCRE `$` also matches before a
      final newline, so one trailing `"\n"` is allowed and is not captured. */
  function HexColorMatch(s: Bytes): (m: Option<Bytes>)
    ensures m.Some? ==> IsHexString(m.value)
    ensures m.Some? ==> s == m.value || s == "#" + m.value || s == m.value + "\n" || s == "#" + m.value + "\n"
    ensures IsHexString(s) ==> m == Some(s)
  {
    var t := if 0 < |s| && s[0] == '#' then s[1..] else s;
    var u := if 0 < |t| && t[|t| - 1] == '\n' then t[..|t| - 1] else t;
    if IsHexString(u) then Some(u) else None
  }

  /** The pattern matches exactly the hexadecimal strings with an optional
      `#` in front and an optional line feed behind, and captures the digits. */
  lemma HexColorMatchExactly(s: Bytes, h: Bytes)
    ensures HexColorMatch(s) == Some(h) <==>
      IsHexString(h) && (s == h || s == "#" + h || s == h + "\n" || s == "#" + h + "\n")
  {
    if IsHexString(h) {
      assert h[0] != '#' && h[|h| - 1] != '\n';
      var withHash := "#" + h;
      assert withHash[1..] == h;
      var withNewline := h + "\n";
      assert withNewline[..|h|] == h;
      var both := "#" + h + "\n";
      assert both[1..] == withNewline;
    }
  }

  /** The arguments that clear the background colour. */
  predicate ClearsColor(color: Value) {
    color == Str("transparent") || color == Bool(false) || color == Null
  }

  /** `bgcolor($background_color)`: `"transparent"`, `false` and `null` clear the
      colour; a hex string, with or without `#`, is stored without it. */
  function Bgcolor(o: Options, color: Value): (r: Result<Options>)
    ensures ClearsColor(color) ==> r == Success(o.(bgcolor := None))
    ensures color.Str? && IsHexString(color.s) ==> r == Success(o.(bgcolor := Some(color.s)))
    ensures r.Success? ==> r.value == o.(bgcolor := r.value.bgcolor)
    ensures r.Success? && r.value.bgcolor.Some? ==> IsHexString(r.value.bgcolor.value)
    ensures r.Failure? <==> !ClearsColor(color) && !(color.Str? && HexColorMatch(color.s).Some?)
    ensures r.Success? && !ClearsColor(color) ==> color.Str? && r.value.bgcolor == HexColorMatch(color.s)
    ensures r.Failure? ==> r == Throw(InvalidArgument, "Background color must be a hex string (e.g. AABBCC). Got: " + ToBytes(color))
  {
    if ClearsColor(color) then
      assert color.Str? ==> !IsHexDigit(color.s[0]);
      Success(o.(bgcolor := None))
    else if color.Str? && HexColorMatch(color.s).Some? then
      Success(o.(bgcolor := HexColorMatch(color.s)))
    else
      Throw(InvalidArgument, "Background color must be a hex string (e.g. AABBCC). Got: " + ToBytes(color))
  }

  /** `\d[.\d]*x?` over the whole string: a digit, then digits and dots, and at most one `x`, last. */
  predicate DprShape(s: Bytes) {
    && 0 < |s| && IsDigit(s[0])
    && forall i | 1 <= i < |s| :: IsDigit(s[i]) || s[i] == '.' || (s[i] == 'x' && i == |s| - 1)
  }

  /** `dpr($dpr)`: accepts `\d[.\d]*x?` and stores the value with a trailing `x` added when missing. */
  function Dpr(o: Options, dpr: Value): (r: Result<Options>)
    ensures r.Success? <==> DprShape(ToBytes(dpr))
    ensures r.Success? ==>
      && r.value.dpr.Some?
      && DprShape(r.value.dpr.value) && EndsWith(r.value.dpr.value, "x")
      && (r.value.dpr.value == ToBytes(dpr) || r.value.dpr.value == ToBytes(dpr) + "x")
      && r.value == o.(dpr := r.value.dpr)
    ensures r.Failure? ==> r == Throw(InvalidArgument, "DPR should be 1x, 2x or 3x. Got: " + ToBytes(dpr))
  {
    var s := ToBytes(dpr);
    if !DprShape(s) then
      Throw(InvalidArgument, "DPR should be 1x, 2x or 3x. Got: " + s)
    else
      var stored := if s[|s| - 1] == 'x' then s else s + "x";
      assert DprShape(stored) by {
        if stored != s {
          assert forall i | 1 <= i < |s| :: stored[i] == s[i];
        }
      }
      Success(o.(dpr := Some(stored)))
  }

  /** `dpr` as written: the PCRE `$` lets one trailing newline through, and the
      suffix test then looks at the capture, not at the end of the string. */
  function DprAsWritten(o: Options, dpr: Value): (r: Result<Options>)
    ensures var s := ToBytes(dpr); !(0 < |s| && s[|s| - 1] == '\n') ==> r == Dpr(o, dpr)
    ensures var s := ToBytes(dpr); 0 < |s| && s[|s| - 1] == '\n' ==>
      && (r.Success? <==> DprShape(s[..|s| - 1]))
      && (r.Success? ==> r.value == o.(dpr := r.value.dpr) && r.value.dpr.Some? && !DprShape(r.value.dpr.value)
                         && (r.value.dpr.value == s || r.value.dpr.value == s + "x"))
      && (r.Failure? ==> r == Throw(InvalidArgument, "DPR should be 1x, 2x or 3x. Got: " + s))
  {
    var s := ToBytes(dpr);
    var core: Option<Bytes> :=
      if DprShape(s) then Some(s)
      else if 0 < |s| && s[|s| - 1] == '\n' && DprShape(s[..|s| - 1]) then Some(s[..|s| - 1])
      else None;
    if core.None? then
      Throw(InvalidArgument, "DPR should be 1x, 2x or 3x. Got: " + s)
    else
      var m := core.value;
      assert s + "" == s;
      assert !DprShape(s) ==> |s| >= 2 && (s + "x")[|s| - 1] == '\n';
      Success(o.(dpr := Some(s + (if m[|m| - 1] == 'x' then "" else "x"))))
  }

  /** `quality($quality)`: accepts exactly `low`, `medium`, `high` and `lossless`. */
  function Quality(o: Options, quality: Value): (r: Result<Options>)
    ensures r.Success? <==> quality.Str? && quality.s in QualityLevels
    ensures r.Success? ==> r.value == o.(quality := Some(quality.s))
    ensures r.Failure? ==> r.error.kind == InvalidArgument
  {
    if quality.Str? && quality.s in QualityLevels then
      Success(o.(quality := Some(quality.s)))
    else
      Throw(InvalidArgument, "Quality is not one of low, medium, high, lossless. Got: " + ToBytes(quality))
  }

  /** The `resize` arguments for a numeric width and height and a string fit mode. */
  function HeightArg(height: Option<Int64>): (r: Value) {
    if height.Some? then Int(height.value) else Null
  }

  function FitArg(fit: Option<Bytes>): (r: Value) {
    if fit.Some? then Str(fit.value) else Null
  }

  function Widen(height: Option<Int64>): (r: Option<int>) {
    if height.Some? then Some(height.value as int) else None
  }

  /** `resize(w, h, fit)` succeeds exactly when width and height are in
      [1, 10000], fit is one of the four keywords, and `crop` and `pad` have a
      height; it then stores exactly those three values. */
  lemma ResizeAcceptsExactlyValidSizes(o: Options, width: Int64, height: Option<Int64>, fit: Option<Bytes>)
    ensures Resize(o, Int(width), HeightArg(height), FitArg(fit)).Success?
      <==> ValidSize(width, Widen(height), fit)
    ensures Resize(o, Int(width), HeightArg(height), FitArg(fit)).Success? ==>
      Resize(o, Int(width), HeightArg(height), FitArg(fit)).value == SetSize(o, width, Widen(height), fit)
  {
  }

  /** A non-numeric second argument is the fit mode when no third argument is
      given, and is reported as a bad height when one is. */
  lemma ResizeReadsSecondArgument(o: Options, width: Value, heightOrFit: Bytes, fit: Value)
    requires !IsNumericString(heightOrFit)
    ensures !Truthy(fit) ==> Resize(o, width, Str(heightOrFit), fit) == Resize(o, width, Null, Str(heightOrFit))
    ensures IsNumeric(width) && Truthy(fit) ==>
      Resize(o, width, Str(heightOrFit), fit) == Throw(InvalidArgument, "Height is not a number: " + heightOrFit)
  {
  }

  /** A width that is not a number is reported before anything else is looked at. */
  lemma ResizeRejectsNonNumericWidth(o: Options, width: Value, heightOrFit: Value, fit: Value)
    requires !IsNumeric(width)
    ensures Resize(o, width, heightOrFit, fit) == Throw(InvalidArgument, "Width is not a number: " + ToBytes(width))
  {
  }

  /** A stored pixel ratio is accepted again unchanged: `dpr` is idempotent. */
  lemma DprIsIdempotent(o: Options, dpr: Value)
    requires Dpr(o, dpr).Success?
    ensures Dpr(o, Str(Dpr(o, dpr).value.dpr.value)) == Dpr(o, dpr)
  {
  }

  /** `dpr("2")` and `dpr("2x")` store the same value. */
  lemma DprSuffixIsOptional(o: Options, s: Bytes)
    requires DprShape(s) && s[|s| - 1] != 'x'
    ensures Dpr(o, Str(s + "x")) == Dpr(o, Str(s))
  {
    var t := s + "x";
    assert forall i | 1 <= i < |s| :: t[i] == s[i];
    assert DprShape(t);
  }

  /** The source's `dpr` stores `"2x\n"`, which does not end in `x`, and turns
      `"2\n"` into `"2\nx"`, which it then refuses; the corrected `Dpr` refuses both. */
  lemma DprAsWrittenAcceptsTrailingNewline(o: Options)
    ensures DprAsWritten(o, Str("2x\n")) == Success(o.(dpr := Some("2x\n")))
    ensures !EndsWith("2x\n", "x")
    ensures DprAsWritten(o, Str("2\n")) == Success(o.(dpr := Some("2\nx")))
    ensures DprAsWritten(o, Str("2\nx")).Failure?
    ensures Dpr(o, Str("2x\n")).Failure? && Dpr(o, Str("2\n")).Failure?
  {
    var a: Bytes := "2x\n";
    var b: Bytes := "2\n";
    var c: Bytes := "2\nx";
    assert a[2] == '\n' && a[..2] == "2x";
    var ma := a[..2];
    assert DprShape(ma) && ma[1] == 'x';
    assert a + "" == a;
    assert b[1] == '\n' && b[..1] == "2";
    assert DprShape(b[..1]);
    assert b + "x" == c;
    assert c[1] == '\n';
  }

  /** With or without `#`, and with or without one final line feed, a
      hexadecimal colour is stored as its digits alone. */
  lemma BgcolorStoresDigits(o: Options, hex: Bytes, s: Bytes)
    requires IsHexString(hex)
    requires s == hex || s == "#" + hex || s == hex + "\n" || s == "#" + hex + "\n"
    ensures Bgcolor(o, Str(s)) == Success(o.(bgcolor := Some(hex)))
  {
    HexColorMatchExactly(s, hex);
    assert s[0] != 't' by {
      assert s[0] == '#' || s[0] == hex[0];
    }
  }

  /** A leading `#` is dropped and the digits are kept as given, case included. */
  lemma BgcolorStripsHash(o: Options, hex: Bytes)
    requires IsHexString(hex)
    ensures Bgcolor(o, Str("#" + hex)) == Success(o.(bgcolor := Some(hex)))
  {
    var s := "#" + hex;
    assert s[1..] == hex;
    assert hex[|hex| - 1] != '\n';
  }
}

=== FILE: percent.dfy ===
/** PHP's `rawurlencode`: percent-encoding per sections 2.1 and 2.3 of RFC 3986,
    which keeps the unreserved characters and writes every other byte as `%`
    and two upper-case hexadecimal digits. */
module PercentEncoding {
  import opened Base

  /** The unreserved characters of section 2.3 of RFC 3986. */
  predicate Unreserved(c: char) {
    || 'A' <= c <= 'Z'
    || 'a' <= c <= 'z'
    || '0' <= c <= '9'
    || c == '-' || c == '_' || c == '.' || c == '~'
  }

  predicate IsUpperHex(c: char) {
    '0' <= c <= '9' || 'A' <= c <= 'F'
  }

  function HexChar(d: nat): (c: Byte)
    requires d < 16
    ensures IsUpperHex(c)
  {
    if d < 10 then ('0' as int + d) as char else ('A' as int + d - 10) as char
  }

  function HexValue(c: Byte): (d: nat)
    requires IsUpperHex(c)
    ensures d < 16
    ensures HexChar(d) == c
  {
    if c <= '9' then c as int - '0' as int else c as int - 'A' as int + 10
  }

  lemma HexValueOfHexChar(d: nat)
    requires d < 16
    ensures HexValue(HexChar(d)) == d
  {
  }

  /** The byte a `%XY` triple stands for. */
  function TripleByte(hi: Byte, lo: Byte): (r: Byte)
    requires IsUpperHex(hi) && IsUpperHex(lo)
  {
    (HexValue(hi) * 16 + HexValue(lo)) as char
  }

  lemma TripleByteDigits(hi: Byte, lo: Byte)
    requires IsUpperHex(hi) && IsUpperHex(lo)
    ensures TripleByte(hi, lo) as int / 16 == HexValue(hi)
    ensures TripleByte(hi, lo) as int % 16 == HexValue(lo)
  {
  }

  function EncodeByte(c: Byte): (r: Bytes) {
    if Unreserved(c) then [c] else ['%', HexChar(c as int / 16), HexChar(c as int % 16)]
  }

  /** `rawurlencode(s)`. */
  function Encode(s: Bytes): (r: Bytes) {
    if |s| == 0 then [] else EncodeByte(s[0]) + Encode(s[1..])
  }

  /** The inverse of `Encode`: a `%` must begin a triple of upper-case hexadecimal digits. */
  function Decode(t: Bytes): (r: Option<Bytes>) {
    if |t| == 0 then Some([])
    else if t[0] != '%' then
      match Decode(t[1..])
      case None => None
      case Some(rest) => Some([t[0]] + rest)
    else if 3 <= |t| && IsUpperHex(t[1]) && IsUpperHex(t[2]) then
      match Decode(t[3..])
      case None => None
      case Some(rest) => Some([TripleByte(t[1], t[2])] + rest)
    else None
  }

  /** The strings `Encode` produces: unreserved characters, and triples for every other byte. */
  predicate Canonical(t: Bytes) {
    if |t| == 0 then true
    else if Unreserved(t[0]) then Canonical(t[1..])
    else
      && t[0] == '%' && 3 <= |t| && IsUpperHex(t[1]) && IsUpperHex(t[2])
      && !Unreserved(TripleByte(t[1], t[2]))
      && Canonical(t[3..])
  }

  /** Decoding the encoding gives back the input: encoding is applied exactly once. */
  lemma {:induction false} DecodeEncode(s: Bytes)
    ensures Decode(Encode(s)) == Some(s)
  {
    if |s| > 0 {
      var c := s[0];
      var t := Encode(s);
      DecodeEncode(s[1..]);
      if Unreserved(c) {
        assert t[1..] == Encode(s[1..]);
      } else {
        assert t[3..] == Encode(s[1..]);
        HexValueOfHexChar(c as int / 16);
        HexValueOfHexChar(c as int % 16);
        assert TripleByte(t[1], t[2]) == c;
      }
      assert [c] + s[1..] == s;
    }
  }

  /** Everything `Encode` produces is canonical. */
  lemma {:induction false} EncodeIsCanonical(s: Bytes)
    ensures Canonical(Encode(s))
  {
    if |s| > 0 {
      var c := s[0];
      var t := Encode(s);
      EncodeIsCanonical(s[1..]);
      if Unreserved(c) {
        assert t[1..] == Encode(s[1..]);
      } else {
        assert t[3..] == Encode(s[1..]);
        HexValueOfHexChar(c as int / 16);
        HexValueOfHexChar(c as int % 16);
        assert TripleByte(t[1], t[2]) == c;
      }
    }
  }

  /** Every canonical string is the encoding of what it decodes to. */
  lemma {:induction false} EncodeDecode(t: Bytes)
    requires Canonical(t)
    ensures Decode(t).Some? && Encode(Decode(t).value) == t
  {
    if |t| > 0 {
      if Unreserved(t[0]) {
        EncodeDecode(t[1..]);
        assert t == [t[0]] + t[1..];
      } else {
        EncodeDecode(t[3..]);
        var c := TripleByte(t[1], t[2]);
        var rest := Decode(t[3..]).value;
        assert Decode(t) == Some([c] + rest);
        TripleByteDigits(t[1], t[2]);
        assert EncodeByte(c) == t[..3];
        assert ([c] + rest)[1..] == rest;
        assert t == t[..3] + t[3..];
      }
    }
  }

  /** A canonical string holds only unreserved characters, `%` and hexadecimal digits. */
  lemma {:induction false} CanonicalAlphabet(t: Bytes)
    requires Canonical(t)
    ensures forall i | 0 <= i < |t| :: Unreserved(t[i]) || t[i] == '%'
  {
    if |t| > 0 {
      if Unreserved(t[0]) {
        CanonicalAlphabet(t[1..]);
        assert forall i | 1 <= i < |t| :: t[i] == t[1..][i - 1];
      } else {
        CanonicalAlphabet(t[3..]);
        assert forall i | 3 <= i < |t| :: t[i] == t[3..][i - 3];
      }
    }
  }

  /** An encoded string contains no `/` and no `,`, the two separators of the API's URLs. */
  lemma EncodeHasNoSeparators(s: Bytes)
    ensures '/' !in Encode(s) && ',' !in Encode(s)
  {
    EncodeIsCanonical(s);
    CanonicalAlphabet(Encode(s));
  }
}

=== FILE: php.dfy ===
/** The slice of PHP's value semantics the library relies on: the values its
    public methods receive, truthiness, string conversion, `is_numeric` and
    `intval`. */
module Php {
  import opened Base

  const IntMax: int := 0x7FFF_FFFF_FFFF_FFFF
  const IntMin: int := -0x8000_0000_0000_0000

  /** PHP integers are 64 bits wide. */
  type Int64 = i: int | -0x8000_0000_0000_0000 <= i <= 0x7FFF_FFFF_FFFF_FFFF

  /** An argument as a caller may pass it: the scalar kinds the library distinguishes. */
  datatype Value = Null | Bool(b: bool) | Int(i: Int64) | Str(s: Bytes)

  /** PHP's truthiness: `null`, `false`, `0`, `""` and `"0"` are falsy. */
  predicate Truthy(v: Value) {
    match v
    case Null => false
    case Bool(b) => b
    case Int(i) => i != 0
    case Str(s) => s != "" && s != "0"
  }

  /** PHP's string conversion `(string)$v`, as used by interpolation and `.`. */
  function ToBytes(v: Value): (r: Bytes) {
    match v
    case Null => ""
    case Bool(b) => if b then "1" else ""
    case Int(i) => Decimal(i)
    case Str(s) => s
  }

  /** Integer literals `is_numeric` accepts: an optional `-` and one or more ASCII digits. */
  predicate IsNumericString(s: Bytes) {
    && 0 < |s|
    && (AllDigits(s) || (s[0] == '-' && 1 < |s| && AllDigits(s[1..])))
  }

  predicate IsNumeric(v: Value) {
    v.Int? || (v.Str? && IsNumericString(v.s))
  }

  /** Out-of-range numeric strings saturate in `intval`. */
  function Saturate(n: int): (r: Int64)
    ensures IntMin <= n <= IntMax ==> r == n
    ensures n > IntMax ==> r == IntMax
    ensures n < IntMin ==> r == IntMin
  {
    if n > IntMax then IntMax else if n < IntMin then IntMin else n
  }

  /** PHP's `intval` on a numeric value. */
  function IntVal(v: Value): (r: Int64)
    requires IsNumeric(v)
  {
    match v
    case Int(i) => i
    case Str(s) => if AllDigits(s) then Saturate(DigitsValue(s)) else Saturate(-(DigitsValue(s[1..]) as int))
  }

  /** A numeric string whose value is positive is made of digits only. */
  lemma PositiveNumericIsDigits(s: Bytes)
    requires IsNumericString(s) && IntVal(Str(s)) > 0
    ensures AllDigits(s)
  {
  }

  /** Converting an integer to a string and back gives the same integer. */
  lemma IntValOfToBytes(i: Int64)
    ensures IsNumeric(Str(ToBytes(Int(i))))
    ensures IntVal(Str(ToBytes(Int(i)))) == i
  {
    if i < 0 {
      var s := ToBytes(Int(i));
      var m: nat := -(i as int);
      assert s[1..] == NatDigits(m);
      DigitsValueOfNatDigits(m);
    } else {
      DigitsValueOfNatDigits(i);
    }
  }
}

=== FILE: rendering.dfy ===
/** The options path segment of the API URL (the first part of `apiURL` in
    src/Request.php), and a parser that reads it back. The parser is the
    partner of the renderer: it shows that the segment is canonical, so two
    valid option records give the same segment exactly when they agree on
    everything the URL can show. */
module Rendering {
  import opened Base
  import opened Php
  import opened Options

  /** `if ($this->field)` on a stored string: set and truthy. */
  predicate Shown(field: Option<Bytes>) {
    field.Some? && Truthy(Str(field.value))
  }

  /** `$size = $this->width; if ($this->height) $size .= 'x' . $this->height;` */
  function SizeItem(width: int, height: Option<int>): (r: Bytes) {
    Decimal(width) + (if height.Some? && height.value != 0 then "x" + Decimal(height.value) else [])
  }

  function SizeItems(o: Options): (r: seq<Bytes>) {
    if o.width.Some? && o.width.value != 0 then [SizeItem(o.width.value, o.height)] else ["full"]
  }

  function FitItems(o: Options): (r: seq<Bytes>) {
    if o.width.Some? && o.width.value != 0 && Shown(o.fit) then [o.fit.value] else []
  }

  function DprItems(o: Options): (r: seq<Bytes>) {
    if Shown(o.dpr) then [o.dpr.value] else []
  }

  function QualityItems(o: Options): (r: seq<Bytes>) {
    if Shown(o.quality) then ["quality=" + o.quality.value] else []
  }

  function TimeoutItems(o: Options): (r: seq<Bytes>) {
    if o.timeout.Some? && Truthy(o.timeout.value) then ["timeout=" + ToBytes(o.timeout.value)] else []
  }

  function BgcolorItems(o: Options): (r: seq<Bytes>) {
    if Shown(o.bgcolor) then ["bgcolor=" + o.bgcolor.value] else []
  }

  /** The `$options` array of `apiURL`, in its fixed order. */
  function Items(o: Options): (r: seq<Bytes>) {
    SizeItems(o) + AfterSize(o)
  }

  function AfterSize(o: Options): (r: seq<Bytes>) {
    FitItems(o) + AfterFit(o)
  }

  function AfterFit(o: Options): (r: seq<Bytes>) {
    DprItems(o) + AfterDpr(o)
  }

  function AfterDpr(o: Options): (r: seq<Bytes>) {
    QualityItems(o) + AfterQuality(o)
  }

  function AfterQuality(o: Options): (r: seq<Bytes>) {
    TimeoutItems(o) + BgcolorItems(o)
  }

  /** `implode(',', $options)`. */
  function Segment(o: Options): (r: Bytes) {
    Join(Items(o), ',')
  }

  /** What the segment can show of valid options: the timeout only as the text
      it prints as, and a background colour of `"0"` (falsy in PHP) not at all. */
  function Normal(o: Options): (r: Options) {
    o.(timeout := if o.timeout.Some? then Some(Str(ToBytes(o.timeout.value))) else None,
       bgcolor := if Shown(o.bgcolor) then o.bgcolor else None)
  }

  // Reading a segment back

  /** Reads `full`, `W` or `WxH`. */
  function ParseSize(item: Bytes): (r: Option<(Option<int>, Option<int>)>) {
    if item == "full" then Some((None, None))
    else
      var i := IndexOf(item, 'x');
      var w := item[..i];
      if |w| == 0 || !AllDigits(w) then None
      else if i == |item| then Some((Some(DigitsValue(w) as int), None))
      else
        var h := item[i + 1..];
        if |h| == 0 || !AllDigits(h) then None
        else Some((Some(DigitsValue(w) as int), Some(DigitsValue(h) as int)))
  }

  function TakeFit(items: seq<Bytes>): (r: (Option<Bytes>, seq<Bytes>)) {
    if 0 < |items| && items[0] in FitKeywords then (Some(items[0]), items[1..]) else (None, items)
  }

  function TakeDpr(items: seq<Bytes>): (r: (Option<Bytes>, seq<Bytes>)) {
    if 0 < |items| && 0 < |items[0]| && IsDigit(items[0][0]) then (Some(items[0]), items[1..]) else (None, items)
  }

  /** Takes the first item when it starts with `prefix`, keeping what follows the prefix. */
  function TakePrefixed(items: seq<Bytes>, prefix: Bytes): (r: (Option<Bytes>, seq<Bytes>)) {
    if 0 < |items| && StartsWith(items[0], prefix) then (Some(items[0][|prefix|..]), items[1..]) else (None, items)
  }

  function ParseItems(items: seq<Bytes>): (r: Option<Options>) {
    if |items| == 0 then None
    else
      var size := ParseSize(items[0]);
      if size.None? then None
      else
        var (width, height) := size.value;
        var (fit, r1) := if width.Some? then TakeFit(items[1..]) else (None, items[1..]);
        var (dpr, r2) := TakeDpr(r1);
        var (quality, r3) := TakePrefixed(r2, "quality=");
        var (timeout, r4) := TakePrefixed(r3, "timeout=");
        var (bgcolor, r5) := TakePrefixed(r4, "bgcolor=");
        if |r5| != 0 then None
        else Some(Options(width, height, fit, dpr, quality,
                          if timeout.Some? then Some(Str(timeout.value)) else None, bgcolor))
  }

  function ParseSegment(segment: Bytes): (r: Option<Options>) {
    ParseItems(Split(segment, ','))
  }

  // Facts about the items of valid options

  lemma NatDigitsTruthy(n: nat)
    requires 0 < n
    ensures Truthy(Str(NatDigits(n)))
  {
  }

  /** In valid options every stored field is shown. */
  lemma ValidFieldsShown(o: Options)
    requires Valid(o)
    ensures o.width.Some? ==> o.width.value != 0
    ensures o.height.Some? ==> o.height.value != 0
    ensures o.fit.Some? ==> Shown(o.fit)
    ensures o.dpr.Some? ==> Shown(o.dpr)
    ensures o.quality.Some? ==> Shown(o.quality)
    ensures o.timeout.Some? ==> Truthy(o.timeout.value) && Truthy(Str(ToBytes(o.timeout.value)))
  {
    if o.dpr.Some? {
      var d := o.dpr.value;
      assert d[|d| - 1] == 'x';
    }
    if o.timeout.Some? {
      match o.timeout.value
      case Int(i) => NatDigitsTruthy(i);
      case Str(s) =>
        var zero: Bytes := "0";
        assert zero[..0] == [];
        assert DigitsValue(zero) == 0;
      case _ =>
    }
  }

  lemma ParseSizeOfWidth(w: Bytes)
    requires 0 < |w| && AllDigits(w)
    ensures ParseSize(w) == Some((Some(DigitsValue(w) as int), None))
  {
    assert w[0] != 'f';
    assert 'x' !in w;
    assert IndexOf(w, 'x') == |w|;
    assert w[..|w|] == w;
  }

  lemma ParseSizeOfPair(w: Bytes, h: Bytes)
    requires 0 < |w| && AllDigits(w) && 0 < |h| && AllDigits(h)
    ensures ParseSize(w + ['x'] + h) == Some((Some(DigitsValue(w) as int), Some(DigitsValue(h) as int)))
  {
    var item := w + ['x'] + h;
    assert item[0] != 'f';
    assert 'x' !in w;
    IndexOfPastPrefix(w, 'x', h);
    assert item[..|w|] == w && item[|w| + 1..] == h;
  }

  lemma SizeItemParses(width: int, height: Option<int>)
    requires InRange(width) && (height.Some? ==> InRange(height.value))
    ensures ParseSize(SizeItem(width, height)) == Some((Some(width), height))
  {
    var w := NatDigits(width);
    DigitsValueOfNatDigits(width);
    if height.Some? {
      var h := NatDigits(height.value);
      DigitsValueOfNatDigits(height.value);
      assert SizeItem(width, height) == w + ['x'] + h;
      ParseSizeOfPair(w, h);
    } else {
      assert SizeItem(width, height) == w;
      ParseSizeOfWidth(w);
    }
  }

  /** The first item, if any, starts with one of `cs`. */
  predicate LeadsWith(items: seq<Bytes>, cs: set<char>) {
    |items| == 0 || (0 < |items[0]| && items[0][0] in cs)
  }

  lemma LeadsWithConcat(a: seq<Bytes>, b: seq<Bytes>, cs: set<char>)
    requires |a| <= 1 && LeadsWith(a, cs) && LeadsWith(b, cs)
    ensures LeadsWith(a + b, cs)
  {
    if |a| == 1 {
      assert (a + b)[0] == a[0];
    }
  }

  lemma NotFitKeyword(x: Bytes)
    requires 0 < |x| && x[0] in {'0', '1', '2', '3', '4', '5', '6', '7', '8', '9', 'q', 't', 'b'}
    ensures x !in FitKeywords
  {
    var f: Bytes := "fit";
    var c: Bytes := "crop";
    var s: Bytes := "scale-down";
    var p: Bytes := "pad";
    assert f[0] == 'f' && c[0] == 'c' && s[0] == 's' && p[0] == 'p';
  }

  lemma AfterQualityLeads(o: Options)
    ensures LeadsWith(AfterQuality(o), {'t', 'b'})
    ensures LeadsWith(BgcolorItems(o), {'b'})
  {
    LeadsWithConcat(TimeoutItems(o), BgcolorItems(o), {'t', 'b'});
  }

  lemma AfterDprLeads(o: Options)
    ensures LeadsWith(AfterDpr(o), {'q', 't', 'b'})
  {
    AfterQualityLeads(o);
    LeadsWithConcat(QualityItems(o), AfterQuality(o), {'q', 't', 'b'});
  }

  lemma AfterFitLeads(o: Options)
    requires Valid(o)
    ensures LeadsWith(AfterFit(o), {'0', '1', '2', '3', '4', '5', '6', '7', '8', '9', 'q', 't', 'b'})
  {
    AfterDprLeads(o);
    LeadsWithConcat(DprItems(o), AfterDpr(o), {'0', '1', '2', '3', '4', '5', '6', '7', '8', '9', 'q', 't', 'b'});
  }

  lemma TakePrefixedHit(prefix: Bytes, value: Bytes, rest: seq<Bytes>)
    ensures TakePrefixed([prefix + value] + rest, prefix) == (Some(value), rest)
  {
    assert ([prefix + value] + rest)[1..] == rest;
    assert (prefix + value)[..|prefix|] == prefix;
    assert (prefix + value)[|prefix|..] == value;
  }

  lemma TakePrefixedMiss(items: seq<Bytes>, prefix: Bytes)
    requires 0 < |prefix|
    requires 0 < |items| ==> 0 < |items[0]| && items[0][0] != prefix[0]
    ensures TakePrefixed(items, prefix) == (None, items)
  {
  }

  lemma TakeFitStep(o: Options)
    requires Valid(o) && o.width.Some?
    ensures TakeFit(AfterSize(o)) == (o.fit, AfterFit(o))
  {
    ValidFieldsShown(o);
    if o.fit.Some? {
      assert AfterSize(o)[1..] == AfterFit(o);
    } else {
      assert AfterSize(o) == AfterFit(o);
      AfterFitLeads(o);
      if 0 < |AfterFit(o)| {
        NotFitKeyword(AfterFit(o)[0]);
      }
    }
  }

  lemma TakeDprStep(o: Options)
    requires Valid(o)
    ensures TakeDpr(AfterFit(o)) == (o.dpr, AfterDpr(o))
  {
    ValidFieldsShown(o);
    if o.dpr.Some? {
      assert AfterFit(o)[1..] == AfterDpr(o);
    } else {
      assert AfterFit(o) == AfterDpr(o);
      AfterDprLeads(o);
    }
  }

  lemma TakeQualityStep(o: Options)
    requires Valid(o)
    ensures TakePrefixed(AfterDpr(o), "quality=") == (o.quality, AfterQuality(o))
  {
    ValidFieldsShown(o);
    if o.quality.Some? {
      TakePrefixedHit("quality=", o.quality.value, AfterQuality(o));
    } else {
      assert AfterDpr(o) == AfterQuality(o);
      AfterQualityLeads(o);
      TakePrefixedMiss(AfterQuality(o), "quality=");
    }
  }

  lemma TakeTimeoutStep(o: Options)
    requires Valid(o)
    ensures TakePrefixed(AfterQuality(o), "timeout=")
      == (if o.timeout.Some? then Some(ToBytes(o.timeout.value)) else None, BgcolorItems(o))
  {
    ValidFieldsShown(o);
    if o.timeout.Some? {
      TakePrefixedHit("timeout=", ToBytes(o.timeout.value), BgcolorItems(o));
    } else {
      assert AfterQuality(o) == BgcolorItems(o);
      AfterQualityLeads(o);
      TakePrefixedMiss(BgcolorItems(o), "timeout=");
    }
  }

  lemma TakeBgcolorStep(o: Options)
    ensures TakePrefixed(BgcolorItems(o), "bgcolor=") == (Normal(o).bgcolor, [])
  {
    if Shown(o.bgcolor) {
      TakePrefixedHit("bgcolor=", o.bgcolor.value, []);
      assert BgcolorItems(o) == ["bgcolor=" + o.bgcolor.value] + [];
    }
  }

  /** Reading the items of valid options gives back their normal form. */
  lemma ParseItemsOfValid(o: Options)
    requires Valid(o)
    ensures ParseItems(Items(o)) == Some(Normal(o))
  {
    ValidFieldsShown(o);
    var items := Items(o);
    assert items[0] == SizeItems(o)[0];
    assert items[1..] == AfterSize(o);
    if o.width.Some? {
      SizeItemParses(o.width.value, o.height);
      TakeFitStep(o);
    } else {
      assert AfterSize(o) == AfterFit(o);
    }
    TakeDprStep(o);
    TakeQualityStep(o);
    TakeTimeoutStep(o);
    TakeBgcolorStep(o);
  }

  /** Neither `,` nor `/`. */
  predicate Clean(x: Bytes) {
    ',' !in x && '/' !in x
  }

  predicate AllClean(items: seq<Bytes>) {
    forall k | 0 <= k < |items| :: Clean(items[k])
  }

  lemma AllCleanConcat(a: seq<Bytes>, b: seq<Bytes>)
    requires AllClean(a) && AllClean(b)
    ensures AllClean(a + b)
  {
    assert forall k | |a| <= k < |a + b| :: (a + b)[k] == b[k - |a|];
  }

  lemma DigitsAreClean(s: Bytes)
    requires AllDigits(s)
    ensures Clean(s)
  {
  }

  lemma SizeItemsAreClean(o: Options)
    requires Valid(o)
    ensures AllClean(SizeItems(o))
  {
    if o.width.Some? {
      var w := o.width.value;
      DigitsAreClean(Decimal(w));
      if o.height.Some? {
        DigitsAreClean(Decimal(o.height.value));
      }
      assert Clean(SizeItem(w, o.height));
    }
  }

  lemma DprItemsAreClean(o: Options)
    requires Valid(o)
    ensures AllClean(DprItems(o))
  {
    if o.dpr.Some? {
      var dp := o.dpr.value;
      assert forall i | 0 <= i < |dp| :: dp[i] != ',' && dp[i] != '/';
    }
  }

  lemma TimeoutItemsAreClean(o: Options)
    requires Valid(o)
    ensures AllClean(TimeoutItems(o))
  {
    if o.timeout.Some? {
      match o.timeout.value
      case Int(i) => DigitsAreClean(ToBytes(o.timeout.value));
      case Str(s) =>
        PositiveNumericIsDigits(s);
        DigitsAreClean(s);
      case _ =>
    }
  }

  lemma FitItemsAreClean(o: Options)
    requires Valid(o)
    ensures AllClean(FitItems(o))
  {
    if o.fit.Some? {
      var f := o.fit.value;
      assert f == "fit" || f == "crop" || f == "scale-down" || f == "pad";
    }
  }

  lemma QualityItemsAreClean(o: Options)
    requires Valid(o)
    ensures AllClean(QualityItems(o))
  {
    if o.quality.Some? {
      var q := o.quality.value;
      assert q == "low" || q == "medium" || q == "high" || q == "lossless";
      assert Clean(q);
      var prefix: Bytes := "quality=";
      assert Clean(prefix);
      assert Clean(prefix + q);
    }
  }

  lemma BgcolorItemsAreClean(o: Options)
    requires Valid(o)
    ensures AllClean(BgcolorItems(o))
  {
    if o.bgcolor.Some? {
      var hex := o.bgcolor.value;
      assert forall i | 0 <= i < |hex| :: hex[i] != ',' && hex[i] != '/';
      var prefix: Bytes := "bgcolor=";
      assert Clean(prefix);
      assert Clean(prefix + hex);
    }
  }

  /** No item of valid options contains `,` or `/`. */
  lemma ItemsAreClean(o: Options)
    requires Valid(o)
    ensures AllClean(Items(o))
  {
    SizeItemsAreClean(o);
    DprItemsAreClean(o);
    TimeoutItemsAreClean(o);
    FitItemsAreClean(o);
    QualityItemsAreClean(o);
    BgcolorItemsAreClean(o);
    AllCleanConcat(TimeoutItems(o), BgcolorItems(o));
    AllCleanConcat(QualityItems(o), AfterQuality(o));
    AllCleanConcat(DprItems(o), AfterDpr(o));
    AllCleanConcat(FitItems(o), AfterFit(o));
    AllCleanConcat(SizeItems(o), AfterSize(o));
  }

  /** The segment of valid options reads back as their normal form. */
  lemma ParseSegmentOfValid(o: Options)
    requires Valid(o)
    ensures ParseSegment(Segment(o)) == Some(Normal(o))
    ensures '/' !in Segment(o)
  {
    ItemsAreClean(o);
    SplitJoin(Items(o), ',');
    ParseItemsOfValid(o);
    JoinExcludes(Items(o), ',', '/');
  }

  /** The segment only depends on the normal form. */
  lemma ItemsOfNormal(o: Options)
    requires Valid(o)
    ensures Items(Normal(o)) == Items(o)
  {
    ValidFieldsShown(o);
  }

  /** Two valid option records give the same segment exactly when they have the
      same normal form: the segment is a canonical rendering of the options. */
  lemma SegmentIsCanonical(o1: Options, o2: Options)
    requires Valid(o1) && Valid(o2)
    ensures Segment(o1) == Segment(o2) <==> Normal(o1) == Normal(o2)
  {
    ParseSegmentOfValid(o1);
    ParseSegmentOfValid(o2);
    ItemsOfNormal(o1);
    ItemsOfNormal(o2);
  }
}

=== FILE: requests.dfy ===
/** A request: the user name, where the image comes from, and its options.
    Models the constructors of src/URLRequest.php and src/FileRequest.php and
    the `apiURL` methods of all three request classes, with a parser for the
    URL that shows what the service can read from it. */
module Requests {
  import opened Base
  import opened Php
  import opened Errors
  import opened Options
  import opened PercentEncoding
  import opened Rendering

  const BaseUrl: Bytes := "https://im2.io"

  /** A URL the service downloads the image from, or a local file uploaded with the request. */
  datatype Source = Remote(url: Bytes) | Local(path: Bytes)

  datatype Request = Request(username: Value, source: Source, options: Options)

  /** `preg_match('/^https?:\/\//', $url)`. */
  predicate IsAbsoluteUrl(url: Bytes) {
    StartsWith(url, "http://") || StartsWith(url, "https://")
  }

  /** No integer prints as an absolute URL, so an absolute URL is always truthy. */
  lemma AbsoluteUrlIsTruthy(url: Value)
    requires IsAbsoluteUrl(ToBytes(url))
    ensures Truthy(url) && url.Str?
  {
    assert ToBytes(url)[0] == 'h';
  }

  /** `new URLRequest($username, $url)`: the user name must be truthy and the
      URL absolute; the options start out unset. */
  function NewUrlRequest(username: Value, url: Value): (r: Result<Request>)
    ensures r.Success? <==> Truthy(username) && IsAbsoluteUrl(ToBytes(url))
    ensures r.Success? ==> r.value == Request(username, Remote(ToBytes(url)), Unset)
    ensures !Truthy(username) ==> r == Throw(InvalidArgument, "")
    ensures Truthy(username) && !Truthy(url) ==> r == Throw(InvalidArgument, "Image URL is required")
    ensures r.Failure? ==> r.error.kind == InvalidArgument && r.error.code == 0
  {
    if !Truthy(username) then Throw(InvalidArgument, "")
    else if !Truthy(url) then Throw(InvalidArgument, "Image URL is required")
    else if !IsAbsoluteUrl(ToBytes(url)) then
      Throw(InvalidArgument, "The API requires absolute image URL (starting with http:// or https://). Got: " + ToBytes(url))
    else
      AbsoluteUrlIsTruthy(url);
      Success(Request(username, Remote(url.s), Unset))
  }

  /** `new FileRequest($username, $path)`. Whether a file exists and the
      working directory are facts about the file system, passed in. */
  function NewFileRequest(username: Value, path: Value, fileExists: Bytes -> bool, cwd: Bytes): (r: Result<Request>)
    ensures r.Success? <==> Truthy(username) && Truthy(path) && fileExists(ToBytes(path))
    ensures r.Success? ==> r.value == Request(username, Local(ToBytes(path)), Unset)
    ensures !Truthy(username) ==> r == Throw(InvalidArgument, "")
    ensures Truthy(username) && !Truthy(path) ==> r == Throw(InvalidArgument, "Image path is required")
    ensures Truthy(username) && Truthy(path) && !fileExists(ToBytes(path)) ==>
      r == Throw(InvalidArgument, "The file '" + ToBytes(path) + "' could not be found (searched relative to '" + cwd + "')")
    ensures r.Failure? ==> r.error.kind == InvalidArgument && r.error.code == 0
  {
    if !Truthy(username) then Throw(InvalidArgument, "")
    else if !Truthy(path) then Throw(InvalidArgument, "Image path is required")
    else if !fileExists(ToBytes(path)) then
      Throw(InvalidArgument, "The file '" + ToBytes(path) + "' could not be found (searched relative to '" + cwd + "')")
    else Success(Request(username, Local(ToBytes(path)), Unset))
  }

  /** `Request::apiURL`: service, encoded user name, options segment. */
  function BaseApiUrl(r: Request): (res: Bytes) {
    UrlPrefix + Encode(ToBytes(r.username)) + "/" + Segment(r.options)
  }

  /** `apiURL` of the concrete class: a URL request appends its encoded image
      URL, a file request adds nothing. */
  function ApiUrl(r: Request): (res: Bytes) {
    match r.source
    case Remote(url) => BaseApiUrl(r) + "/" + Encode(url)
    case Local(_) => BaseApiUrl(r)
  }

  /** What a request's API URL carries: the user name as a string, the options
      as the segment shows them, and the image URL of a remote source. */
  function Visible(r: Request): (v: (Bytes, Options, Option<Bytes>)) {
    (ToBytes(r.username), Normal(r.options), if r.source.Remote? then Some(r.source.url) else None)
  }

  const UrlPrefix: Bytes := BaseUrl + "/"

  /** Reads an API URL back into user name, options and image URL. */
  function ParseApiUrl(u: Bytes): (r: Option<(Bytes, Options, Option<Bytes>)>) {
    if StartsWith(u, UrlPrefix) then ParseParts(Split(u[|UrlPrefix|..], '/')) else None
  }

  /** Reads the `/`-separated parts after the host: user name, options, and an optional image URL. */
  function ParseParts(parts: seq<Bytes>): (r: Option<(Bytes, Options, Option<Bytes>)>) {
    if |parts| != 2 && |parts| != 3 then None
    else
      match (Decode(parts[0]), ParseSegment(parts[1]))
      case (Some(user), Some(o)) =>
        if |parts| == 2 then Some((user, o, None))
        else (
          match Decode(parts[2])
          case Some(url) => Some((user, o, Some(url)))
          case None => None)
      case _ => None
  }

  /** The path of an API URL is the `/`-join of its encoded parts. */
  function UrlParts(r: Request): (res: seq<Bytes>) {
    [Encode(ToBytes(r.username)), Segment(r.options)]
      + (if r.source.Remote? then [Encode(r.source.url)] else [])
  }

  lemma JoinedPath(a: Bytes, b: Bytes, c: Option<Bytes>)
    ensures UrlPrefix + a + "/" + b + (if c.Some? then "/" + c.value else [])
      == UrlPrefix + Join([a, b] + (if c.Some? then [c.value] else []), '/')
  {
    if c.Some? {
      assert [a, b] + [c.value] == [a, b, c.value];
      JoinTriple(a, b, c.value, '/');
    } else {
      assert [a, b] + [] == [a, b];
      JoinPair(a, b, '/');
    }
  }

  lemma ApiUrlIsJoin(r: Request)
    ensures ApiUrl(r) == UrlPrefix + Join(UrlParts(r), '/')
  {
    var user := Encode(ToBytes(r.username));
    var seg := Segment(r.options);
    var url := if r.source.Remote? then Some(Encode(r.source.url)) else None;
    JoinedPath(user, seg, url);
  }

  lemma ParseApiUrlOfPrefixed(path: Bytes)
    ensures ParseApiUrl(UrlPrefix + path) == ParseParts(Split(path, '/'))
  {
    var u := UrlPrefix + path;
    assert u[..|UrlPrefix|] == UrlPrefix;
    assert u[|UrlPrefix|..] == path;
  }

  lemma ParsePartsOfValid(r: Request)
    requires Valid(r.options)
    ensures ParseParts(UrlParts(r)) == Some(Visible(r))
  {
    DecodeEncode(ToBytes(r.username));
    ParseSegmentOfValid(r.options);
    if r.source.Remote? {
      DecodeEncode(r.source.url);
    }
  }

  /** Reading the API URL of a request with valid options gives back what it carries. */
  lemma ApiUrlRoundTrip(r: Request)
    requires Valid(r.options)
    ensures ParseApiUrl(ApiUrl(r)) == Some(Visible(r))
  {
    var parts := UrlParts(r);
    EncodeHasNoSeparators(ToBytes(r.username));
    ParseSegmentOfValid(r.options);
    if r.source.Remote? {
      EncodeHasNoSeparators(r.source.url);
    }
    assert forall k | 0 <= k < |parts| :: '/' !in parts[k];
    SplitJoin(parts, '/');
    ApiUrlIsJoin(r);
    ParseApiUrlOfPrefixed(Join(parts, '/'));
    ParsePartsOfValid(r);
  }

  /** Two requests with valid options have the same API URL exactly when they
      carry the same user name, the same normal options and the same image URL. */
  lemma ApiUrlIsCanonical(r1: Request, r2: Request)
    requires Valid(r1.options) && Valid(r2.options)
    ensures ApiUrl(r1) == ApiUrl(r2) <==> Visible(r1) == Visible(r2)
  {
    ApiUrlRoundTrip(r1);
    ApiUrlRoundTrip(r2);
    if Visible(r1) == Visible(r2) {
      SegmentIsCanonical(r1.options, r2.options);
    }
  }
}

=== FILE: scenarios.dfy ===
/** Concrete uses of the library, as its unit tests (test/BasicTest.php)
    exercise it. */
module Scenarios {
  import opened Base
  import opened Php
  import opened Errors
  import opened Options
  import opened Chain
  import opened Rendering
  import opened PercentEncoding
  import opened Requests
  import opened Api

  const Low: Bytes := "low"
  const TwoX: Bytes := "2x"

  const Chained: Options := Options(Some(1280), Some(300), None, Some(TwoX), Some(Low), Some(Int(34)), None)

  lemma DprOfInteger(o: Options)
    ensures Dpr(o, Int(2)) == Success(o.(dpr := Some(TwoX)))
  {
    var two: Bytes := "2";
    assert ToBytes(Int(2)) == two;
    assert DprShape(two);
    assert two + "x" == TwoX;
  }

  lemma DprOfString(o: Options)
    ensures Dpr(o, Str(TwoX)) == Success(o.(dpr := Some(TwoX)))
  {
    assert DprShape(TwoX) && TwoX[1] == 'x';
  }

  /** A chain whose first call succeeds continues from that call's result. */
  lemma RunFirst(o: Options, c: Call, rest: seq<Call>, next: Options)
    requires Apply(o, c) == Success(next)
    ensures Run(o, [c] + rest) == Run(next, rest)
  {
    assert ([c] + rest)[1..] == rest;
  }

  lemma ResizeWidth(o: Options)
    ensures Resize(o, Int(1280), Null, Null) == Success(o.(width := Some(1280), height := None, fit := None))
    ensures Resize(o, Int(1280), Int(300), Null) == Success(o.(width := Some(1280), height := Some(300), fit := None))
  {
  }

  /** The first call order of the chaining test. */
  const FirstCalls: seq<Call> := [
    ResizeCall(Int(1280), Null, Null), OptimizeCall, TimeoutCall(Int(34)), QualityCall(Str(Low)),
    ResizeCall(Int(1280), Null, Null), DprCall(Str(TwoX)), ResizeCall(Int(1280), Int(300), Null)]

  /** The second call order, with the pixel ratio given as an integer. */
  const SecondCalls: seq<Call> := [
    OptimizeCall, ResizeCall(Int(1280), Null, Null), ResizeCall(Int(1280), Null, Null), DprCall(Int(2)),
    TimeoutCall(Int(34)), ResizeCall(Int(1280), Int(300), Null), QualityCall(Str(Low))]

  lemma FirstChain()
    ensures Run(Unset, FirstCalls) == Success(Chained)
  {
    var o1 := Unset.(width := Some(1280));
    var o2 := o1.(timeout := Some(Int(34)));
    var o3 := o2.(quality := Some(Low));
    var o4 := o3.(dpr := Some(TwoX));
    ResizeWidth(Unset);
    ResizeWidth(o3);
    ResizeWidth(o4);
    DprOfString(o3);
    RunFirst(o4, ResizeCall(Int(1280), Int(300), Null), [], Chained);
    RunFirst(o3, DprCall(Str(TwoX)), [ResizeCall(Int(1280), Int(300), Null)], o4);
    RunFirst(o3, ResizeCall(Int(1280), Null, Null), [DprCall(Str(TwoX)), ResizeCall(Int(1280), Int(300), Null)], o3);
    RunFirst(o2, QualityCall(Str(Low)), [ResizeCall(Int(1280), Null, Null), DprCall(Str(TwoX)), ResizeCall(Int(1280), Int(300), Null)], o3);
    RunFirst(o1, TimeoutCall(Int(34)), [QualityCall(Str(Low)), ResizeCall(Int(1280), Null, Null), DprCall(Str(TwoX)), ResizeCall(Int(1280), Int(300), Null)], o2);
    RunFirst(o1, OptimizeCall, [TimeoutCall(Int(34)), QualityCall(Str(Low)), ResizeCall(Int(1280), Null, Null), DprCall(Str(TwoX)), ResizeCall(Int(1280), Int(300), Null)], o1);
    RunFirst(Unset, ResizeCall(Int(1280), Null, Null), [OptimizeCall, TimeoutCall(Int(34)), QualityCall(Str(Low)), ResizeCall(Int(1280), Null, Null), DprCall(Str(TwoX)), ResizeCall(Int(1280), Int(300), Null)], o1);
  }

  lemma SecondChain()
    ensures Run(Unset, SecondCalls) == Success(Chained)
  {
    var o1 := Unset.(width := Some(1280));
    var o2 := o1.(dpr := Some(TwoX));
    var o3 := o2.(timeout := Some(Int(34)));
    var o4 := o3.(height := Some(300));
    ResizeWidth(Unset);
    ResizeWidth(o1);
    ResizeWidth(o3);
    DprOfInteger(o1);
    RunFirst(o4, QualityCall(Str(Low)), [], Chained);
    RunFirst(o3, ResizeCall(Int(1280), Int(300), Null), [QualityCall(Str(Low))], o4);
    RunFirst(o2, TimeoutCall(Int(34)), [ResizeCall(Int(1280), Int(300), Null), QualityCall(Str(Low))], o3);
    RunFirst(o1, DprCall(Int(2)), [TimeoutCall(Int(34)), ResizeCall(Int(1280), Int(300), Null), QualityCall(Str(Low))], o2);
    RunFirst(o1, ResizeCall(Int(1280), Null, Null), [DprCall(Int(2)), TimeoutCall(Int(34)), ResizeCall(Int(1280), Int(300), Null), QualityCall(Str(Low))], o1);
    RunFirst(Unset, ResizeCall(Int(1280), Null, Null), [ResizeCall(Int(1280), Null, Null), DprCall(Int(2)), TimeoutCall(Int(34)), ResizeCall(Int(1280), Int(300), Null), QualityCall(Str(Low))], o1);
    RunFirst(Unset, OptimizeCall, [ResizeCall(Int(1280), Null, Null), ResizeCall(Int(1280), Null, Null), DprCall(Int(2)), TimeoutCall(Int(34)), ResizeCall(Int(1280), Int(300), Null), QualityCall(Str(Low))], Unset);
  }

  /** Both call orders of the chaining test give the same API URL, whatever the user and the image. */
  lemma ChainsGiveSameUrl(username: Value, url: Bytes)
    ensures Run(Unset, FirstCalls).Success? && Run(Unset, SecondCalls).Success?
    ensures ApiUrl(Request(username, Remote(url), Run(Unset, FirstCalls).value))
      == ApiUrl(Request(username, Remote(url), Run(Unset, SecondCalls).value))
  {
    FirstChain();
    SecondChain();
  }

  /** Padding with a background colour: the `#` is dropped and the letter case kept. */
  lemma PadWithBackground()
    ensures Run(Unset, [ResizeCall(Int(10), Int(15), Str("pad")), BgcolorCall(Str("#FFffFF"))])
      == Success(Unset.(width := Some(10), height := Some(15), fit := Some("pad"), bgcolor := Some("FFffFF")))
  {
    var pad: Bytes := "pad";
    var hex: Bytes := "FFffFF";
    var o1 := Unset.(width := Some(10), height := Some(15), fit := Some(pad));
    assert pad in FitKeywords;
    assert Resize(Unset, Int(10), Int(15), Str(pad)) == Success(o1);
    assert IsHexString(hex);
    assert "#" + hex == "#FFffFF";
    BgcolorStripsHash(o1, hex);
    RunFirst(o1, BgcolorCall(Str("#FFffFF")), [], o1.(bgcolor := Some(hex)));
    RunFirst(Unset, ResizeCall(Int(10), Int(15), Str(pad)), [BgcolorCall(Str("#FFffFF"))], o1);
  }

  /** The first word of an error message, which the tests of `resize` look for. */
  predicate Says(r: Result<Options>, word: string) {
    r.Failure? && |word| <= |r.error.message| && r.error.message[..|word|] == word
  }

  lemma PrefixOfConcat(a: string, b: string, n: nat)
    requires n <= |a|
    ensures (a + b)[..n] == a[..n]
  {
  }

  /** Cropping and padding without a height are refused with a message about the height. */
  lemma CropNeedsHeight(o: Options, width: Int64, fit: Bytes)
    requires InRange(width) && NeedsHeight(fit)
    ensures Says(Resize(o, Int(width), Null, Str(fit)), "Height")
  {
    assert fit in FitKeywords;
    var a := "Height is required for '";
    var b := "' scaling mode\n";
    var c := "Please specify height or use 'fit' scaling mode to allow flexible height";
    assert Resize(o, Int(width), Null, Str(fit)) == Throw(InvalidArgument, a + fit + b + c);
    PrefixOfConcat(a, fit, 6);
    PrefixOfConcat(a + fit, b, 6);
    PrefixOfConcat(a + fit + b, c, 6);
    assert a[..6] == "Height";
  }

  /** An out-of-range height is refused with a message about the height. */
  lemma HeightOutOfRange(o: Options, width: Int64, height: Int64, fit: Value)
    requires InRange(width) && !InRange(height)
    ensures Says(Resize(o, Int(width), Int(height), fit), "Height")
  {
    var a := "Height is out of allowed range: ";
    assert Resize(o, Int(width), Int(height), fit) == Throw(InvalidArgument, a + Decimal(height));
    PrefixOfConcat(a, Decimal(height), 6);
    assert a[..6] == "Height";
  }

  /** `:` and `/` of an image URL are percent-encoded. */
  lemma SeparatorsEncoded()
    ensures Encode("://") == "%3A%2F%2F"
  {
  }
}

=== FILE: transport.dfy ===
/** Sending a request and classifying the answer: `getBytesWithOptions` in
    src/Request.php and the two `getBytes` methods. The stream layer is not
    modelled: what it reports for one request is an `Exchange`, produced by a
    `send` function the caller supplies; JSON decoding is likewise a parameter. */
module Transport {
  import opened Base
  import opened Php
  import opened Errors
  import opened Options
  import opened Requests
  import opened Multipart

  // The status line

  /** A digit, or also a dot when `dots` holds. */
  predicate InSpan(c: char, dots: bool) {
    IsDigit(c) || (dots && c == '.')
  }

  /** What `[\d.]+` matches: a nonempty run of digits and dots. */
  predicate IsVersion(v: Bytes) {
    0 < |v| && forall k | 0 <= k < |v| :: InSpan(v[k], true)
  }

  /** Length of the longest prefix of `s` whose bytes are `InSpan`. */
  function DigitSpan(s: Bytes, dots: bool): (n: nat)
    ensures n <= |s|
    ensures forall k | 0 <= k < n :: InSpan(s[k], dots)
    ensures n < |s| ==> !InSpan(s[n], dots)
  {
    if |s| == 0 || !InSpan(s[0], dots) then 0 else 1 + DigitSpan(s[1..], dots)
  }

  /** What the two groups of the status pattern capture: the code digits and the reason phrase. */
  datatype StatusMatch = StatusMatch(code: Bytes, reason: Bytes)

  const HttpPrefix: Bytes := "HTTP/"

  /** Whether `HTTP\/[\d.]+ (\d+) (.*)` matches at position `i` of `line`, and
      what it captures there. Both `+` runs stop before a space, so the greedy
      match is the only one; `.` does not match a newline. */
  function StatusAt(line: Bytes, i: nat): (m: Option<StatusMatch>)
    requires i <= |line|
    ensures m.Some? ==> 0 < |m.value.code| && AllDigits(m.value.code) && '\n' !in m.value.reason
  {
    if StartsWith(line[i..], HttpPrefix) then StatusAfterPrefix(line[i + |HttpPrefix|..]) else None
  }

  /** `[\d.]+ ` and the rest, after `HTTP/`. */
  function StatusAfterPrefix(a: Bytes): (m: Option<StatusMatch>)
    ensures m.Some? ==> 0 < |m.value.code| && AllDigits(m.value.code) && '\n' !in m.value.reason
  {
    var v := DigitSpan(a, true);
    if v == 0 || v == |a| || a[v] != ' ' then None else StatusAfterVersion(a[v + 1..])
  }

  /** `(\d+) (.*)`, after the version. */
  function StatusAfterVersion(b: Bytes): (m: Option<StatusMatch>)
    ensures m.Some? ==> 0 < |m.value.code| && AllDigits(m.value.code) && '\n' !in m.value.reason
  {
    var d := DigitSpan(b, false);
    if d == 0 || d == |b| || b[d] != ' ' then None
    else
      var rest := b[d + 1..];
      assert forall k | 0 <= k < d :: b[..d][k] == b[k];
      Some(StatusMatch(b[..d], rest[..IndexOf(rest, '\n')]))
  }

  /** The first position at or after `from` where the pattern matches, or `|line| + 1`. */
  function FirstStatusAt(line: Bytes, from: nat): (p: nat)
    requires from <= |line|
    ensures from <= p <= |line| + 1
    ensures p <= |line| ==> StatusAt(line, p).Some?
    ensures forall j | from <= j < p && j <= |line| :: StatusAt(line, j).None?
    decreases |line| - from
  {
    if StatusAt(line, from).Some? then from
    else if from == |line| then |line| + 1
    else FirstStatusAt(line, from + 1)
  }

  /** `preg_match` of the status pattern: the leftmost match, if any. */
  function MatchStatus(line: Bytes): (m: Option<StatusMatch>)
    ensures m.None? <==> forall i | 0 <= i <= |line| :: StatusAt(line, i).None?
    ensures m.Some? ==> exists i | 0 <= i <= |line| :: StatusAt(line, i) == m
  {
    var p := FirstStatusAt(line, 0);
    if p <= |line| then StatusAt(line, p) else None
  }

  /** A status line as a server writes it. */
  function StatusLine(version: Bytes, code: nat, reason: Bytes): (r: Bytes) {
    HttpPrefix + (version + (" " + (NatDigits(code) + (" " + reason))))
  }

  lemma DigitSpanOf(s: Bytes, rest: Bytes, dots: bool)
    requires forall k | 0 <= k < |s| :: InSpan(s[k], dots)
    requires 0 < |rest| && !InSpan(rest[0], dots)
    ensures DigitSpan(s + rest, dots) == |s|
  {
    assert (s + rest)[|s|] == rest[0];
    assert forall k | 0 <= k < |s| :: (s + rest)[k] == s[k];
  }

  lemma AfterVersionOf(digits: Bytes, reason: Bytes, tail: Bytes)
    requires 0 < |digits| && AllDigits(digits) && '\n' !in reason
    requires tail == [] || tail[0] == '\n'
    ensures StatusAfterVersion(digits + (" " + (reason + tail))) == Some(StatusMatch(digits, reason))
  {
    var rest: Bytes := " " + (reason + tail);
    var b := digits + rest;
    assert forall k | 0 <= k < |digits| :: InSpan(digits[k], false);
    DigitSpanOf(digits, rest, false);
    assert b[|digits|] == ' ';
    assert b[..|digits|] == digits;
    assert b[|digits| + 1..] == reason + tail;
    if tail == [] {
      assert IndexOf(reason + tail, '\n') == |reason| by {
        assert reason + tail == reason;
      }
    } else {
      IndexOfPastPrefix(reason, '\n', tail[1..]);
      assert reason + tail == reason + ['\n'] + tail[1..];
    }
    assert (reason + tail)[..|reason|] == reason;
  }

  lemma AfterPrefixOf(version: Bytes, b: Bytes)
    requires IsVersion(version)
    ensures StatusAfterPrefix(version + (" " + b)) == StatusAfterVersion(b)
  {
    var rest: Bytes := " " + b;
    var a := version + rest;
    DigitSpanOf(version, rest, true);
    assert a[|version|] == ' ';
    assert a[|version| + 1..] == b;
  }

  lemma StatusAtStart(a: Bytes)
    ensures StatusAt(HttpPrefix + a, 0) == StatusAfterPrefix(a)
  {
    var line := HttpPrefix + a;
    assert line[0..] == line;
    assert line[..|HttpPrefix|] == HttpPrefix;
    assert line[|HttpPrefix|..] == a;
  }

  lemma StatusLineAtStart(version: Bytes, code: nat, reason: Bytes)
    requires IsVersion(version)
    requires '\n' !in reason
    ensures StatusAt(StatusLine(version, code, reason), 0) == Some(StatusMatch(NatDigits(code), reason))
  {
    var line := StatusLine(version, code, reason);
    var m := StatusMatch(NatDigits(code), reason);
    assert reason + [] == reason;
    assert line[0..] == line;
    assert StatusText(line[0..], version, m, []);
    TextMatches(line, 0, version, m, []);
  }

  /** A well-formed status line matches at its start, capturing the code and the reason. */
  lemma StatusLineMatches(version: Bytes, code: nat, reason: Bytes)
    requires IsVersion(version)
    requires '\n' !in reason
    ensures MatchStatus(StatusLine(version, code, reason)) == Some(StatusMatch(NatDigits(code), reason))
  {
    StatusLineAtStart(version, code, reason);
    MatchAtStart(StatusLine(version, code, reason));
  }

  lemma MatchAtStart(line: Bytes)
    requires StatusAt(line, 0).Some?
    ensures MatchStatus(line) == StatusAt(line, 0)
  {
    assert FirstStatusAt(line, 0) == 0;
  }

  /** `s` is `HTTP/`, a version, a space, the code, a space and the reason,
      followed by the rest of the header, which is empty or starts a new line. */
  predicate StatusText(s: Bytes, version: Bytes, m: StatusMatch, tail: Bytes) {
    && IsVersion(version)
    && (tail == [] || tail[0] == '\n')
    && s == HttpPrefix + (version + (" " + (m.code + (" " + (m.reason + tail)))))
  }

  lemma AfterVersionText(b: Bytes) returns (tail: Bytes)
    requires StatusAfterVersion(b).Some?
    ensures tail == [] || tail[0] == '\n'
    ensures b == StatusAfterVersion(b).value.code + (" " + (StatusAfterVersion(b).value.reason + tail))
  {
    var d := DigitSpan(b, false);
    var rest := b[d + 1..];
    var n := IndexOf(rest, '\n');
    var m := StatusAfterVersion(b).value;
    assert m.code == b[..d] && m.reason == rest[..n];
    tail := rest[n..];
    assert rest == m.reason + tail;
    SplitAtSpace(b, d);
  }

  lemma SplitAtSpace(a: Bytes, v: nat)
    requires v < |a| && a[v] == ' '
    ensures a == a[..v] + (" " + a[v + 1..])
  {
  }

  lemma TextOf(version: Bytes, b: Bytes, m: StatusMatch, tail: Bytes)
    requires IsVersion(version) && (tail == [] || tail[0] == '\n')
    requires b == m.code + (" " + (m.reason + tail))
    ensures StatusText(HttpPrefix + (version + (" " + b)), version, m, tail)
  {
  }

  lemma AfterPrefixText(a: Bytes) returns (version: Bytes, tail: Bytes)
    requires StatusAfterPrefix(a).Some?
    ensures StatusText(HttpPrefix + a, version, StatusAfterPrefix(a).value, tail)
  {
    var v := DigitSpan(a, true);
    version := a[..v];
    var b := a[v + 1..];
    var m := StatusAfterVersion(b).value;
    assert StatusAfterPrefix(a) == Some(m);
    tail := AfterVersionText(b);
    assert IsVersion(version) by {
      assert forall k | 0 <= k < v :: version[k] == a[k];
    }
    SplitAtSpace(a, v);
    TextOf(version, b, m, tail);
  }

  /** Where the pattern matches, the header holds `HTTP/`, a version, the
      captured code and the captured reason, the reason running to the end of
      the line; conversely such text is matched with those captures. */
  lemma StatusAtReadsLine(line: Bytes, i: nat)
    requires i <= |line|
    ensures StatusAt(line, i).Some? ==>
      exists version, tail :: StatusText(line[i..], version, StatusAt(line, i).value, tail)
    ensures forall version, m, tail | StatusText(line[i..], version, m, tail) && 0 < |m.code| && AllDigits(m.code) && '\n' !in m.reason ::
      StatusAt(line, i) == Some(m)
  {
    var s := line[i..];
    if StatusAt(line, i).Some? {
      var a := line[i + |HttpPrefix|..];
      assert s == HttpPrefix + a by {
        assert s[..|HttpPrefix|] == HttpPrefix;
      }
      var version, tail := AfterPrefixText(a);
    }
    forall version, m, tail | StatusText(s, version, m, tail) && 0 < |m.code| && AllDigits(m.code) && '\n' !in m.reason
      ensures StatusAt(line, i) == Some(m)
    {
      TextMatches(line, i, version, m, tail);
    }
  }

  lemma TextMatches(line: Bytes, i: nat, version: Bytes, m: StatusMatch, tail: Bytes)
    requires i <= |line|
    requires StatusText(line[i..], version, m, tail) && 0 < |m.code| && AllDigits(m.code) && '\n' !in m.reason
    ensures StatusAt(line, i) == Some(m)
  {
    var b := m.code + (" " + (m.reason + tail));
    var a := version + (" " + b);
    assert line[i..] == HttpPrefix + a;
    assert line[i..][..|HttpPrefix|] == HttpPrefix;
    assert line[i + |HttpPrefix|..] == a by {
      assert line[i + |HttpPrefix|..] == line[i..][|HttpPrefix|..];
    }
    AfterPrefixOf(version, b);
    AfterVersionOf(m.code, m.reason, tail);
  }

  // The content type

  function Lower(c: Byte): (r: Byte) {
    if 'A' <= c <= 'Z' then (c as int + 32) as char else c
  }

  /** PCRE's `\s`: space, tab, line feed, vertical tab, form feed, carriage return. */
  predicate IsSpace(c: char) {
    c == ' ' || c == '\t' || c == '\n' || c == 11 as char || c == 12 as char || c == '\r'
  }

  /** The lower-case `pattern` occurs at `i` of `s`, ignoring the case of ASCII letters in `s`. */
  predicate MatchesAt(s: Bytes, i: nat, pattern: Bytes) {
    i + |pattern| <= |s| && forall k | 0 <= k < |pattern| :: Lower(s[i + k]) == pattern[k]
  }

  function SpaceSpan(s: Bytes): (n: nat)
    ensures n <= |s|
    ensures forall k | 0 <= k < n :: IsSpace(s[k])
    ensures n < |s| ==> !IsSpace(s[n])
  {
    if |s| == 0 || !IsSpace(s[0]) then 0 else 1 + SpaceSpan(s[1..])
  }

  const ContentTypeName: Bytes := "content-type:"
  const JsonType: Bytes := "application/im2+json"

  /** `content-type:\s*application\/im2\+json` matches at `i`, case-insensitively. */
  predicate JsonTypeAt(h: Bytes, i: nat) {
    && MatchesAt(h, i, ContentTypeName)
    && var j := i + |ContentTypeName|;
       MatchesAt(h, j + SpaceSpan(h[j..]), JsonType)
  }

  predicate DeclaresJson(h: Bytes) {
    exists i | 0 <= i <= |h| :: JsonTypeAt(h, i)
  }

  /** `preg_grep` over the response headers finds a line. */
  predicate AnyDeclaresJson(headers: seq<Bytes>) {
    exists k | 0 <= k < |headers| :: DeclaresJson(headers[k])
  }

  lemma SpaceSpanOf(spaces: Bytes, rest: Bytes)
    requires forall k | 0 <= k < |spaces| :: IsSpace(spaces[k])
    requires 0 < |rest| && !IsSpace(rest[0])
    ensures SpaceSpan(spaces + rest) == |spaces|
  {
    assert (spaces + rest)[|spaces|] == rest[0];
    assert forall k | 0 <= k < |spaces| :: (spaces + rest)[k] == spaces[k];
  }

  /** `name` lowers to `pattern`, so `pattern` matches where `name` occurs. */
  lemma MatchesAtName(s: Bytes, i: nat, name: Bytes, pattern: Bytes)
    requires i + |name| <= |s| && s[i..i + |name|] == name
    requires |name| == |pattern| && forall k | 0 <= k < |name| :: Lower(name[k]) == pattern[k]
    ensures MatchesAt(s, i, pattern)
  {
    assert forall k | 0 <= k < |name| :: s[i + k] == name[k];
  }

  lemma JsonTypeIsLowerCase()
    ensures forall k | 0 <= k < |JsonType| :: Lower(JsonType[k]) == JsonType[k]
  {
  }

  /** A `Content-Type` header naming the service's JSON type is recognised, in
      any letter case of the header name, after any run of white space. */
  lemma JsonHeaderRecognised(prefix: Bytes, name: Bytes, spaces: Bytes, suffix: Bytes)
    requires |name| == |ContentTypeName| && forall k | 0 <= k < |name| :: Lower(name[k]) == ContentTypeName[k]
    requires forall k | 0 <= k < |spaces| :: IsSpace(spaces[k])
    ensures DeclaresJson(prefix + (name + (spaces + (JsonType + suffix))))
  {
    var y := JsonType + suffix;
    var x := spaces + y;
    var w := name + x;
    var h := prefix + w;
    var i := |prefix|;
    var j := i + |name|;
    var m := j + |spaces|;
    NestedSlices(prefix, name, spaces, y);
    MatchesAtName(h, i, name, ContentTypeName);
    SpaceSpanOf(spaces, y);
    assert h[m..m + |JsonType|] == y[..|JsonType|] == JsonType;
    JsonTypeIsLowerCase();
    MatchesAtName(h, m, JsonType, JsonType);
    JsonTypeFound(h, i, |spaces|);
  }

  lemma NestedSlices(p: Bytes, a: Bytes, b: Bytes, c: Bytes)
    ensures (p + (a + (b + c)))[|p|..|p| + |a|] == a
    ensures (p + (a + (b + c)))[|p| + |a|..] == b + c
    ensures (p + (a + (b + c)))[|p| + |a| + |b|..] == c
  {
  }

  lemma JsonTypeFound(h: Bytes, i: nat, n: nat)
    requires MatchesAt(h, i, ContentTypeName)
    requires SpaceSpan(h[i + |ContentTypeName|..]) == n
    requires MatchesAt(h, i + |ContentTypeName| + n, JsonType)
    ensures DeclaresJson(h)
  {
    assert JsonTypeAt(h, i);
  }

  /** A line without a colon names no content type. */
  lemma NoColonNoJson(h: Bytes)
    requires ':' !in h
    ensures !DeclaresJson(h)
  {
    assert ContentTypeName[12] == ':';
    forall i | 0 <= i <= |h| ensures !MatchesAt(h, i, ContentTypeName) {
      if i + 13 <= |h| {
        assert h[i + 12] != ':';
      }
    }
  }

  // The answer

  datatype Meta = Meta(headers: seq<Bytes>, timedOut: bool)

  /** What the stream layer reports for one request: the stream could not be
      opened, or it was, with the body it read (empty when reading failed), the
      stream's metadata when it could be read, and PHP's last error message. */
  datatype Exchange =
    | OpenFailed(lastError: Option<string>)
    | Opened(body: Bytes, lastError: Option<string>, meta: Option<Meta>)

  /** The fields of a decoded JSON error document the library reads, each
      `None` when absent or null. */
  datatype JsonReply = JsonReply(status: Option<Int64>, error: Option<Bytes>, code: Option<Bytes>)

  /** `($err ? $err['message'] : '')`. */
  function LastError(err: Option<string>): (r: string) {
    if err.Some? then err.value else ""
  }

  /** The last four checks of `getBytesWithOptions`, on the final status and message. */
  function Respond(status: int, message: string, source: Bytes, body: Bytes): (r: Result<Bytes>)
    ensures r.Success? <==> status < 400
    ensures r.Success? ==> r.value == body
    ensures r.Failure? ==> r.error.code == status
    ensures r.Failure? ==> (r.error.kind == Api <==> 500 <= status)
    ensures r.Failure? ==> (r.error.kind == NotFound <==> status == 404)
    ensures r.Failure? ==> (r.error.kind == OriginServer <==> status == 403)
    ensures r.Failure? ==> (r.error.kind == InvalidArgument <==> status < 500 && status != 403 && status != 404)
    ensures r.Failure? && r.error.kind in {Api, InvalidArgument} ==> r.error.message == message
    ensures r.Failure? && r.error.kind == NotFound ==> r.error.message == "Could not find the image: " + source
    ensures r.Failure? && r.error.kind == OriginServer ==> r.error.message == "Origin server denied access to " + source
  {
    if status >= 500 then Failure(Error(Api, message, status))
    else if status == 404 then Failure(Error(NotFound, "Could not find the image: " + source, status))
    else if status == 403 then Failure(Error(OriginServer, "Origin server denied access to " + source, status))
    else if status >= 400 then Failure(Error(InvalidArgument, message, status))
    else Success(body)
  }

  /** The status `intval($status[1])` reads from the captured code digits. */
  function CodeValue(m: StatusMatch): (r: Int64)
    requires 0 < |m.code| && AllDigits(m.code)
  {
    IntVal(Str(m.code))
  }

  /** A response whose status line matched: the body, the header lines, and what the pattern captured. */
  datatype Answer = Answer(body: Bytes, headers: seq<Bytes>, line: StatusMatch)

  /** The transport checks of `getBytesWithOptions`, up to the status line:
      a network error, or the answer to classify. */
  function Receive(x: Exchange, url: Bytes): (r: Result<Answer>)
    ensures r.Success? ==> x.Opened? && r.value.body == x.body && Truthy(Str(x.body))
    ensures r.Success? ==> 0 < |r.value.line.code| && AllDigits(r.value.line.code)
    ensures r.Failure? ==> r.error.kind == Network
  {
    match x
    case OpenFailed(err) => Throw(Network, "Can't send HTTPS request to: " + url + "\n" + LastError(err))
    case Opened(body, err, meta) =>
      if !Truthy(Str(body)) || meta.None? then
        Throw(Network, "Error reading HTTPS response from: " + url + "\n" + LastError(err))
      else if |meta.value.headers| == 0 then
        Throw(Network, "Unable to read headers from HTTP request to: " + url)
      else if meta.value.timedOut then
        Failure(Error(Network, "Request timed out: " + url, 504))
      else
        var line := meta.value.headers[0];
        match MatchStatus(line)
        case None => Throw(Network, "Unexpected response: " + line)
        case Some(m) => Success(Answer(body, meta.value.headers, m))
  }

  /** The JSON document of an answer, read only when a header declares the service's JSON type. */
  function Reply(a: Answer, decode: Bytes -> Option<JsonReply>): (r: Option<JsonReply>) {
    if AnyDeclaresJson(a.headers) then decode(a.body) else None
  }

  /** The status after the JSON override. */
  function FinalStatus(a: Answer, decode: Bytes -> Option<JsonReply>): (r: int)
    requires 0 < |a.line.code| && AllDigits(a.line.code)
  {
    var reply := Reply(a, decode);
    if reply.Some? && reply.value.status.Some? then reply.value.status.value else CodeValue(a.line)
  }

  /** The message after the JSON override. As written, `$status[2]` indexes the
      integer `$status` has just become and reads `null`, so the message starts
      out empty; corrected, it starts out as the reason phrase. */
  function FinalMessage(a: Answer, decode: Bytes -> Option<JsonReply>, asWritten: bool): (r: string) {
    var reply := Reply(a, decode);
    if reply.Some? && reply.value.error.Some? then reply.value.error.value
    else if asWritten then "" else a.line.reason
  }

  /** The checks of `getBytesWithOptions` after the status line. */
  function Conclude(a: Answer, source: Bytes, decode: Bytes -> Option<JsonReply>, asWritten: bool): (r: Result<Bytes>)
    requires 0 < |a.line.code| && AllDigits(a.line.code)
    ensures r.Success? ==> r.value == a.body
  {
    var status := FinalStatus(a, decode);
    var message := FinalMessage(a, decode, asWritten);
    var reply := Reply(a, decode);
    if reply.Some? && reply.value.code == Some("IM2ACCOUNT") then Failure(Error(AccessDenied, message, status))
    else Respond(status, message, source, a.body)
  }

  function ClassifyWith(x: Exchange, url: Bytes, source: Bytes, decode: Bytes -> Option<JsonReply>, asWritten: bool): (r: Result<Bytes>)
    ensures r.Success? ==> x.Opened? && r.value == x.body && Truthy(Str(x.body))
  {
    match Receive(x, url)
    case Failure(e) => Failure(e)
    case Success(a) => Conclude(a, source, decode, asWritten)
  }

  /** `getBytesWithOptions`, with the message the reason phrase of the status
      line unless the JSON document gives one. */
  function Classify(x: Exchange, url: Bytes, source: Bytes, decode: Bytes -> Option<JsonReply>): (r: Result<Bytes>)
    ensures r.Success? ==> x.Opened? && r.value == x.body && Truthy(Str(x.body))
  {
    ClassifyWith(x, url, source, decode, false)
  }

  /** `getBytesWithOptions` as written: the message is empty unless the JSON document gives one. */
  function ClassifyAsWritten(x: Exchange, url: Bytes, source: Bytes, decode: Bytes -> Option<JsonReply>): (r: Result<Bytes>)
    ensures r.Success? ==> x.Opened? && r.value == x.body && Truthy(Str(x.body))
  {
    ClassifyWith(x, url, source, decode, true)
  }

  /** The exchange failed before an HTTP status was read. */
  predicate TransportFailed(x: Exchange) {
    || x.OpenFailed?
    || !Truthy(Str(x.body)) || x.meta.None?
    || |x.meta.value.headers| == 0
    || x.meta.value.timedOut
    || MatchStatus(x.meta.value.headers[0]).None?
  }

  /** No answer that gets past the transport checks raises a network error. */
  lemma ConcludeIsNotNetwork(a: Answer, source: Bytes, decode: Bytes -> Option<JsonReply>, asWritten: bool)
    requires 0 < |a.line.code| && AllDigits(a.line.code)
    ensures Conclude(a, source, decode, asWritten).Failure? ==> Conclude(a, source, decode, asWritten).error.kind != Network
  {
  }

  /** Exactly the exchanges that fail before a status is read raise network
      errors; of those only a time-out carries a code, 504. */
  lemma NetworkErrorsAreTransportFailures(x: Exchange, url: Bytes, source: Bytes, decode: Bytes -> Option<JsonReply>)
    ensures TransportFailed(x) <==> Classify(x, url, source, decode).Failure? && Classify(x, url, source, decode).error.kind == Network
    ensures TransportFailed(x) ==> Classify(x, url, source, decode).error.code == (if x.Opened? && Truthy(Str(x.body)) && x.meta.Some? && |x.meta.value.headers| > 0 && x.meta.value.timedOut then 504 else 0)
  {
    if Receive(x, url).Success? {
      ConcludeIsNotNetwork(Receive(x, url).value, source, decode, false);
    }
  }

  /** Without a JSON document the status is what `intval` reads from the
      status line's code, and the message its reason phrase (empty as written). */
  lemma ConcludePlain(a: Answer, source: Bytes, decode: Bytes -> Option<JsonReply>)
    requires 0 < |a.line.code| && AllDigits(a.line.code)
    requires !AnyDeclaresJson(a.headers)
    ensures Conclude(a, source, decode, false) == Respond(CodeValue(a.line), a.line.reason, source, a.body)
    ensures Conclude(a, source, decode, true) == Respond(CodeValue(a.line), "", source, a.body)
  {
  }

  /** The code digits a server writes are read back as the code. */
  lemma CodeValueOfNatDigits(code: nat, reason: Bytes)
    requires code <= IntMax
    ensures CodeValue(StatusMatch(NatDigits(code), reason)) == code
  {
    DigitsValueOfNatDigits(code);
  }

  /** An exchange whose first header line is a well-formed status line gets past the transport checks. */
  lemma ReceiveStatusLine(body: Bytes, err: Option<string>, headers: seq<Bytes>, version: Bytes, code: nat, reason: Bytes, url: Bytes)
    requires Truthy(Str(body)) && 0 < |headers|
    requires IsVersion(version)
    requires '\n' !in reason
    requires headers[0] == StatusLine(version, code, reason)
    ensures Receive(Opened(body, err, Some(Meta(headers, false))), url) == Success(Answer(body, headers, StatusMatch(NatDigits(code), reason)))
  {
    StatusLineMatches(version, code, reason);
  }

  /** A well-formed answer without a JSON document is classified by its
      status code alone, with the reason phrase as the message. */
  lemma PlainAnswer(body: Bytes, err: Option<string>, headers: seq<Bytes>, version: Bytes, code: nat, reason: Bytes,
                    url: Bytes, source: Bytes, decode: Bytes -> Option<JsonReply>)
    requires Truthy(Str(body)) && 0 < |headers| && !AnyDeclaresJson(headers)
    requires IsVersion(version)
    requires '\n' !in reason && code <= IntMax
    requires headers[0] == StatusLine(version, code, reason)
    ensures Classify(Opened(body, err, Some(Meta(headers, false))), url, source, decode) == Respond(code, reason, source, body)
    ensures ClassifyAsWritten(Opened(body, err, Some(Meta(headers, false))), url, source, decode) == Respond(code, "", source, body)
  {
    ReceiveStatusLine(body, err, headers, version, code, reason, url);
    ConcludePlain(Answer(body, headers, StatusMatch(NatDigits(code), reason)), source, decode);
    CodeValueOfNatDigits(code, reason);
  }

  /** A JSON document that gives a status and an error replaces both the
      code and the reason of the status line, unless it names an account error. */
  lemma JsonOverride(a: Answer, source: Bytes, decode: Bytes -> Option<JsonReply>, s: Int64, e: Bytes, c: Option<Bytes>)
    requires 0 < |a.line.code| && AllDigits(a.line.code)
    requires AnyDeclaresJson(a.headers)
    requires decode(a.body) == Some(JsonReply(Some(s), Some(e), c)) && c != Some("IM2ACCOUNT")
    ensures Conclude(a, source, decode, false) == Respond(s, e, source, a.body)
    ensures Conclude(a, source, decode, true) == Respond(s, e, source, a.body)
  {
  }

  /** A JSON status without an error replaces the code; the message stays the
      reason phrase (empty as written). */
  lemma JsonStatusOnly(a: Answer, source: Bytes, decode: Bytes -> Option<JsonReply>, s: Int64, c: Option<Bytes>)
    requires 0 < |a.line.code| && AllDigits(a.line.code)
    requires AnyDeclaresJson(a.headers)
    requires decode(a.body) == Some(JsonReply(Some(s), None, c)) && c != Some("IM2ACCOUNT")
    ensures Conclude(a, source, decode, false) == Respond(s, a.line.reason, source, a.body)
    ensures Conclude(a, source, decode, true) == Respond(s, "", source, a.body)
  {
  }

  /** A JSON error without a status replaces the message; the status stays the
      status line's code. */
  lemma JsonErrorOnly(a: Answer, source: Bytes, decode: Bytes -> Option<JsonReply>, e: Bytes, c: Option<Bytes>)
    requires 0 < |a.line.code| && AllDigits(a.line.code)
    requires AnyDeclaresJson(a.headers)
    requires decode(a.body) == Some(JsonReply(None, Some(e), c)) && c != Some("IM2ACCOUNT")
    ensures Conclude(a, source, decode, false) == Respond(CodeValue(a.line), e, source, a.body)
    ensures Conclude(a, source, decode, true) == Respond(CodeValue(a.line), e, source, a.body)
  {
  }

  /** A JSON document with neither a status nor an error, and no account
      error, leaves the status line's code and reason in force. */
  lemma JsonNeither(a: Answer, source: Bytes, decode: Bytes -> Option<JsonReply>, c: Option<Bytes>)
    requires 0 < |a.line.code| && AllDigits(a.line.code)
    requires AnyDeclaresJson(a.headers)
    requires decode(a.body) == Some(JsonReply(None, None, c)) && c != Some("IM2ACCOUNT")
    ensures Conclude(a, source, decode, false) == Respond(CodeValue(a.line), a.line.reason, source, a.body)
    ensures Conclude(a, source, decode, true) == Respond(CodeValue(a.line), "", source, a.body)
  {
  }

  /** A body that does not decode is classified as if no JSON type were
      declared: by the status line's code and reason. */
  lemma JsonUndecodable(a: Answer, source: Bytes, decode: Bytes -> Option<JsonReply>)
    requires 0 < |a.line.code| && AllDigits(a.line.code)
    requires decode(a.body).None?
    ensures Conclude(a, source, decode, false) == Respond(CodeValue(a.line), a.line.reason, source, a.body)
    ensures Conclude(a, source, decode, true) == Respond(CodeValue(a.line), "", source, a.body)
  {
  }

  /** The account error code `IM2ACCOUNT` raises an access-denied error,
      whatever the status, even on a successful answer. Its code is the JSON
      status when one is given and the status line's otherwise; its message is
      the JSON error when one is given and the reason phrase otherwise (empty
      as written). */
  lemma AccountErrorOverridesStatus(a: Answer, source: Bytes, decode: Bytes -> Option<JsonReply>, s: Option<Int64>, e: Option<Bytes>)
    requires 0 < |a.line.code| && AllDigits(a.line.code)
    requires AnyDeclaresJson(a.headers)
    requires decode(a.body) == Some(JsonReply(s, e, Some("IM2ACCOUNT")))
    ensures Conclude(a, source, decode, false)
      == Failure(Error(AccessDenied, if e.Some? then e.value else a.line.reason, if s.Some? then s.value else CodeValue(a.line)))
    ensures Conclude(a, source, decode, true)
      == Failure(Error(AccessDenied, if e.Some? then e.value else "", if s.Some? then s.value else CodeValue(a.line)))
  {
  }

  /** The as-written classifier agrees with the corrected one on everything but the message. */
  lemma AsWrittenDiffersOnlyInMessage(x: Exchange, url: Bytes, source: Bytes, decode: Bytes -> Option<JsonReply>)
    ensures ClassifyAsWritten(x, url, source, decode).Success? <==> Classify(x, url, source, decode).Success?
    ensures Classify(x, url, source, decode).Success? ==> ClassifyAsWritten(x, url, source, decode) == Classify(x, url, source, decode)
    ensures Classify(x, url, source, decode).Failure? ==>
      && ClassifyAsWritten(x, url, source, decode).error.kind == Classify(x, url, source, decode).error.kind
      && ClassifyAsWritten(x, url, source, decode).error.code == Classify(x, url, source, decode).error.code
  {
  }

  /** The as-written classifier loses the reason phrase: a plain `400 Bad
      Request` raises an invalid-argument error with an empty message, where
      the corrected one reports `Bad Request`. */
  lemma AsWrittenLosesReason(url: Bytes, source: Bytes, decode: Bytes -> Option<JsonReply>)
    ensures ClassifyAsWritten(Opened("x", None, Some(Meta([StatusLine("1.1", 400, "Bad Request")], false))), url, source, decode)
      == Failure(Error(InvalidArgument, "", 400))
    ensures Classify(Opened("x", None, Some(Meta([StatusLine("1.1", 400, "Bad Request")], false))), url, source, decode)
      == Failure(Error(InvalidArgument, "Bad Request", 400))
  {
    var version: Bytes := "1.1";
    var reason: Bytes := "Bad Request";
    var line := StatusLine(version, 400, reason);
    assert IsVersion(version) && '\n' !in reason;
    assert ':' !in line;
    NoColonNoJson(line);
    PlainAnswer("x", None, [line], version, 400, reason, url, source, decode);
  }

  // Sending

  const MinTimeout: int := 30
  const AcceptHeader: Bytes := "Accept: image/*,application/im2+json\r\n"
  const UserAgent: Bytes := "User-Agent: ImageOptim-php/1.1 PHP/"

  /** The HTTP context `getBytesWithOptions` opens the API URL with. */
  datatype HttpRequest = HttpRequest(
    url: Bytes,
    httpMethod: Bytes,
    timeout: int,
    ignoreErrors: bool,
    header: Bytes,
    content: Option<Bytes>)

  /** `max(30, $this->timeout)`: the configured time-out, but never less than 30 seconds. */
  function EffectiveTimeout(o: Options): (t: int)
    ensures MinTimeout <= t
    ensures o.timeout.Some? && IsNumeric(o.timeout.value) ==> IntVal(o.timeout.value) <= t
    ensures t == MinTimeout || (o.timeout.Some? && IsNumeric(o.timeout.value) && t == IntVal(o.timeout.value))
  {
    if o.timeout.Some? && IsNumeric(o.timeout.value) && IntVal(o.timeout.value) > MinTimeout
    then IntVal(o.timeout.value) else MinTimeout
  }

  /** The headers `getBytesWithOptions` appends to the caller's. */
  function ClientHeaders(phpVersion: Bytes): (r: Bytes) {
    AcceptHeader + UserAgent + phpVersion
  }

  /** The context for a request: POST to its API URL, errors not raised by the
      stream layer, the caller's headers followed by `Accept` and `User-Agent`. */
  function Prepare(r: Request, header: Bytes, content: Option<Bytes>, phpVersion: Bytes): (res: HttpRequest) {
    HttpRequest(ApiUrl(r), "POST", EffectiveTimeout(r.options), true,
                header + ClientHeaders(phpVersion), content)
  }

  /** The file name or image URL named in the messages about a request. */
  function SourceName(s: Source): (r: Bytes) {
    match s
    case Remote(url) => url
    case Local(path) => path
  }

  /** What `getBytes` sends: for a URL request, no body and no extra headers;
      for a file request, the multipart upload of the file, or the error raised
      when the file cannot be read. `readFile` stands for `file_get_contents`
      and `md5` for PHP's `md5`. */
  function Outgoing(r: Request, phpVersion: Bytes, readFile: Bytes -> Option<Bytes>, md5: Bytes -> Digest): (res: Result<HttpRequest>) {
    match r.source
    case Remote(_) => Success(Prepare(r, "", None, phpVersion))
    case Local(path) =>
      var data := readFile(path);
      if data.None? || !Truthy(Str(data.value)) then Throw(Api, "Unable to read " + path)
      else
        var hash := md5(path);
        var content := Body(Boundary(hash), Basename(path), data.value);
        Success(Prepare(r, UploadHeaders(content, hash), Some(content), phpVersion))
  }

  /** `getBytes`: send the request with `send` and classify what comes back. */
  function GetBytes(r: Request, phpVersion: Bytes, readFile: Bytes -> Option<Bytes>, md5: Bytes -> Digest,
                    send: HttpRequest -> Exchange, decode: Bytes -> Option<JsonReply>): (res: Result<Bytes>)
  {
    match Outgoing(r, phpVersion, readFile, md5)
    case Failure(e) => Failure(e)
    case Success(h) => Classify(send(h), h.url, SourceName(r.source), decode)
  }

  /** Every request goes to the request's API URL, by POST, with at least the
      minimum time-out, ending its headers with the client's identification. */
  lemma OutgoingTargetsApiUrl(r: Request, phpVersion: Bytes, readFile: Bytes -> Option<Bytes>, md5: Bytes -> Digest)
    ensures Outgoing(r, phpVersion, readFile, md5).Success? ==>
      var h := Outgoing(r, phpVersion, readFile, md5).value;
      && h.url == ApiUrl(r) && h.httpMethod == "POST" && MinTimeout <= h.timeout
      && EndsWith(h.header, ClientHeaders(phpVersion))
  {
    match r.source
    case Remote(_) => ConcatEnds("", ClientHeaders(phpVersion));
    case Local(path) =>
      var hash := md5(path);
      var data := readFile(path);
      if data.Some? && Truthy(Str(data.value)) {
        var content := Body(Boundary(hash), Basename(path), data.value);
        ConcatEnds(UploadHeaders(content, hash), ClientHeaders(phpVersion));
      }
  }

  /** A URL request sends no body and only the client's headers; a file
      request fails exactly when the file cannot be read or its contents are
      falsy. Otherwise its headers declare the body's length, `md5` of the
      path as `Content-MD5`, and the boundary made from that hash, and the
      body read with the declared boundary gives back the base name and the
      contents exactly when the contents do not contain the delimiter. */
  lemma OutgoingUpload(r: Request, phpVersion: Bytes, readFile: Bytes -> Option<Bytes>, md5: Bytes -> Digest)
    ensures r.source.Remote? ==>
      && Outgoing(r, phpVersion, readFile, md5).Success?
      && Outgoing(r, phpVersion, readFile, md5).value.content.None?
      && Outgoing(r, phpVersion, readFile, md5).value.header == ClientHeaders(phpVersion)
    ensures r.source.Local? ==>
      var data := readFile(r.source.path);
      (Outgoing(r, phpVersion, readFile, md5).Success? <==> data.Some? && Truthy(Str(data.value)))
    ensures r.source.Local? && Outgoing(r, phpVersion, readFile, md5).Failure? ==>
      Outgoing(r, phpVersion, readFile, md5).error == Error(Api, "Unable to read " + r.source.path, 0)
    ensures r.source.Local? && Outgoing(r, phpVersion, readFile, md5).Success? ==>
      var h := Outgoing(r, phpVersion, readFile, md5).value;
      var data := readFile(r.source.path).value;
      && h.content.Some?
      && ContentLength(h.header) == Some(|h.content.value|)
      && ContentMd5(h.header) == Some(md5(r.source.path))
      && DeclaredBoundary(h.header) == Some(Boundary(md5(r.source.path)))
      && (ParseBody(h.content.value, DeclaredBoundary(h.header).value) == Some((Basename(r.source.path), data))
          <==> !Contains(data, Delimiter(DeclaredBoundary(h.header).value)))
  {
    if r.source.Remote? {
      assert "" + ClientHeaders(phpVersion) == ClientHeaders(phpVersion);
    }
    if r.source.Local? && Outgoing(r, phpVersion, readFile, md5).Success? {
      var path := r.source.path;
      var hash := md5(path);
      var data := readFile(path).value;
      var content := Body(Boundary(hash), Basename(path), data);
      DigestBoundary(hash);
      BodyRoundTrip(Boundary(hash), Basename(path), data);
      UploadHeadersReadBack(content, hash, ClientHeaders(phpVersion));
    }
  }

  /** `getBytes` returns exactly the body of the answer to what it sent, and
      raises the file error before sending anything; a missing image or a
      refusing origin is reported with the request's own URL or path. */
  lemma GetBytesOutcome(r: Request, phpVersion: Bytes, readFile: Bytes -> Option<Bytes>, md5: Bytes -> Digest,
                        send: HttpRequest -> Exchange, decode: Bytes -> Option<JsonReply>)
    ensures Outgoing(r, phpVersion, readFile, md5).Failure? ==>
      GetBytes(r, phpVersion, readFile, md5, send, decode) == Failure(Outgoing(r, phpVersion, readFile, md5).error)
    ensures GetBytes(r, phpVersion, readFile, md5, send, decode).Success? ==>
      && Outgoing(r, phpVersion, readFile, md5).Success?
      && GetBytes(r, phpVersion, readFile, md5, send, decode).value == send(Outgoing(r, phpVersion, readFile, md5).value).body
    ensures GetBytes(r, phpVersion, readFile, md5, send, decode).Failure? ==>
      var e := GetBytes(r, phpVersion, readFile, md5, send, decode).error;
      && (e.kind == NotFound ==> e.message == "Could not find the image: " + SourceName(r.source))
      && (e.kind == OriginServer ==> e.message == "Origin server denied access to " + SourceName(r.source))
  {
  }
}
